=== FILE: README.md ===
# import-tracking-logs: a Dafny model of the S3 sync loop

This project models `CustomS3Manager` and `Uncompress.extract_files`. They
form the pipeline that:

- lists the gzip tracking logs under a prefix of an object store;
- downloads each log not processed before into the staging directory
  (`~/`);
- decompresses it next to the archive;
- posts the JSON to an ingestion endpoint;
- sweeps the staging directory;
- after every attempted key, rewrites each of two progress files,
  `downloaded_files.txt` and `error_files.txt`, whose key set is non-empty;
  the file of a set that is still empty is left as it is.

The model's layout:

- `wrappers.dfy`: `Option` and `Result`.
- `py_text.dfy`: the Python string operations the code relies on.
  - `rstrip`, `lstrip`, `strip` and `split("/")[-1]`.
  - Reading a text file with `readlines()` and `line.strip()`, including
    universal-newline translation, with the split/join inverse and the
    `"\r\n"`/`"\r"` mapping.
  - Writing keys with `writelines`, and what reading them back gives for
    any keys.
- `py_path.dfy`: the POSIX `os.path` functions `basename`, `dirname`,
  `join` and `expanduser("~/")`, on strings.
- `local_disk.dfy`: the file system.
  - A value `Fs` holds the regular files, the directories, and the two
    progress files with their text.
  - A class `Disk` holds the same state as mutable fields.
- `file_utils.dfy`: the name rule `file.rstrip('.gz')`, and the effect of
  `extract_files`. The gzip codec's outcome comes from outside.
- `s3_manager.dfy`: the specification functions `Candidates`, `Scan`,
  `Visit`, `TryAttempt`, `Step`, `Run` and `Sync`, plus the class `Manager`.
  Each `Manager` method does the source method's work on a `Disk`. It is
  proved equal to its specification function.
- `s3_manager_proofs.dfy`: what the listing, one attempt, the loop and the
  progress files guarantee.

The object store is a map from listing prefix to the keys it returns, in
order. What each download, extraction and HTTP post does is an `Attempt`
chosen by an `Oracle`. The oracle also gives the order in which the
interpreter iterates a set.

Behaviour of the code worth knowing (the model follows the code):

- An empty or missing listing raises `KeyError`, s3_manager.py:37. It does
  not give an empty candidate list. See `EmptyListingFails`.
- The progress files are not appended to. Each one is opened in `"w"` mode,
  where `readable()` is false. So `existing_files` is always empty and the
  whole set is written again, s3_manager.py:125-137.
- The JSON file is deleted whatever the HTTP status, s3_manager.py:157.
  See `DeliveredAttempt`.
- The staging directory is swept only on the success path,
  s3_manager.py:119. After a failed post or a truncated archive, the
  archive and the JSON file stay behind. See `PostFailureKeepsBoth` and
  `TruncatedArchiveIsError`.
- A key whose extraction raised is only in the error set, yet it is not
  listed again: its archive stays staged, and `list_files` skips a key
  whose staged path exists, s3_manager.py:58-61. It comes back only after
  a later success sweeps the staging directory. See
  `TruncatedKeyNotRelisted`. A key whose post raised is recorded as
  processed and is not attempted again either.
- A file that is not gzip still leaves a JSON file, and that file is
  posted. `extract_files` opens the output file before the lazy gzip
  stream is read, so `BadGzipFile`, an `OSError`, is caught only after the
  output exists. A truncated or corrupt stream raises `EOFError` or
  `zlib.error`. Neither is an `OSError`, so the error reaches
  `download_files`, file_utils.py:7-13.
- The listing keeps duplicates and catalog order. It is a sequence, not a
  set. See `RepeatedKeyReturnedTwice`.
- A listing that contains its own prefix's folder marker (`prefix + "/"`)
  raises: the marker's subfolder is empty, so `list_files` lists the same
  prefix again. See `SelfListedFolderRaises`. When no folder key comes
  before the marker, what it raises is the `RecursionError`. See
  `SelfListedFolderHitsRecursionLimit`.
- The nested listing's prefix drops `len(prefix)` characters of the folder
  key, s3_manager.py:53-54. The key, however, holds the configured base
  prefix as well. Under a non-empty base prefix, a folder found from the
  top level is listed under the base prefix twice. See `NestedListingPrefix`.
- Keys are written verbatim, s3_manager.py:129, but read back stripped,
  s3_manager.py:43 and :87. A key with whitespace at either end is never
  recognised as processed. Once the sweep has removed its staged archive,
  the next run lists it and posts its JSON file again. See
  `UnstrippedKeyNeverKnown` and `PaddedKeyDeliveredTwice`.
- The integration test expects `~/fileN.json`, s3_test.py:60-62. The name
  rule gives `~/file1` instead, because `rstrip(".gz")` strips characters,
  not a suffix. See `UncompressedNameExamples`.

## Model

| member | source | states |
|---|---|---|
| `PyText.RStrip` | file_utils.py:9 | `s.rstrip(chars)`: the result is a prefix of `s`; it does not end in a stripped character; everything removed was a stripped character |
| `PyText.LStrip` | s3_manager.py:43 | `s.lstrip(chars)`: the result does not start with a stripped character, everything removed was one, and the result keeps the input's last character |
| `PyText.LStripSuffix` | s3_manager.py:43 | what `lstrip` keeps is exactly a suffix of the input |
| `PyText.Strip` | s3_manager.py:43 | `line.strip()`: the result has no whitespace at either end; a string already stripped is unchanged; no character is introduced |
| `PyText.StripTrims` | s3_manager.py:43 | `line.strip()` is a slice of the line with only whitespace before and after it |
| `PyText.LastSegment` | s3_manager.py:58 | `key.split("/")[-1]`: no '/' in the result, and the character before it, if any, is '/' |
| `PyText.TranslateNewlines` | s3_manager.py:42-43 | text-mode reading leaves no '\r', leaves text without '\r' unchanged, and keeps a final newline |
| `PyText.TranslateAppend` | s3_manager.py:42-43 | text not ending in '\r' is translated independently of what follows it |
| `PyText.CrLfBecomesNewline` | s3_manager.py:42-43 | wherever it occurs, "\r\n" reads as one "\n" |
| `PyText.LoneCrBecomesNewline` | s3_manager.py:42-43 | wherever it occurs, a '\r' not followed by '\n' reads as one "\n" |
| `PyText.SplitNewlines` | s3_manager.py:43 | splitting at newlines gives at least one piece and no piece holds a newline |
| `PyText.JoinSplit` | s3_manager.py:43 | joining the pieces of the split with "\n" gives the text back |
| `PyText.SplitJoin` | s3_manager.py:43 | splitting line-free pieces joined with "\n" gives the pieces back |
| `PyText.RawLines` | s3_manager.py:43 | `readlines()` with the line ends removed: no line holds a newline |
| `PyText.RawLinesRender` | s3_manager.py:43 | the lines written back, each followed by a newline, give the text, plus a newline when it did not end in one |
| `PyText.RawLinesAppend` | s3_manager.py:43 | the lines of text ending in a newline do not depend on what follows it |
| `PyText.StripAll` | s3_manager.py:43 | each line is stripped, in order, and none is lost |
| `PyText.ReadLines` | s3_manager.py:42-43 | every line read back is stripped and holds no line break |
| `PyText.ReadLinesAppend` | s3_manager.py:86-87 | reading text that ends in a newline and then more text reads the two parts apart |
| `PyText.RenderLines` | s3_manager.py:129 | `writelines(f"{key}\n" ...)`: the text is empty or ends in a newline |
| `PyText.RenderAppend` | s3_manager.py:129 | writing two key sequences in turn writes their concatenation |
| `PyText.LoadKeys` | s3_manager.py:87 | `{line.strip() for line in file.readlines()}`: the set of the lines read; what it holds is stated by `LoadRendered` |
| `PyText.LoadRendered` | s3_manager.py:86-87 | loading a file written from any key sequence gives the lines of those keys, each key read on its own, whatever the keys contain |
| `PyText.StorableReadsBack` | s3_manager.py:87 | a stripped key without line breaks, written as one line, reads back as exactly itself |
| `PyText.FileLinesOfStorable` | s3_manager.py:87 | the lines of a set of such keys are the set itself |
| `PyText.SplitRendered` | s3_manager.py:129 | splitting the written keys at newlines gives the keys back, then one empty piece |
| `PyText.RenderedHasNoCarriageReturn` | s3_manager.py:129 | written line-safe keys contain no '\r' |
| `PyText.ReadRenderedLines` | s3_manager.py:86-87 | reading back written keys gives each key stripped, in the written order |
| `PyText.LoadRenderedKeys` | s3_manager.py:86-87 | writing an enumeration of storable keys and loading it back gives exactly that key set |
| `PyPath.Basename` | s3_manager.py:145 | `os.path.basename`: no '/' in the result, and the character before it, if any, is '/' |
| `PyPath.Head` | s3_manager.py:147 | the head `dirname` starts from is a prefix of the path that is empty or ends in '/' |
| `PyPath.HeadThenBasename` | s3_manager.py:145-147 | a path is exactly its head followed by its basename |
| `PyPath.Dirname` | s3_manager.py:147 | `os.path.dirname`: the head with its trailing slashes removed, unless it is all slashes; see `DirnameTrimsHead` |
| `PyPath.DirnameTrimsHead` | s3_manager.py:163 | the dirname is a prefix of the head before the basename, only slashes are dropped, and it has no trailing slash unless it is all slashes |
| `PyPath.Join` | s3_manager.py:147 | `os.path.join(a, b)` for two components; see `JoinEnds` |
| `PyPath.JoinEnds` | s3_manager.py:166 | a joined path ends in `b`, starts with `a` unless `b` is absolute, and is `b` when it is |
| `PyPath.ExpandUser` | s3_manager.py:22 | `expanduser("~/")` ends in exactly one '/' |
| `PyPath.BasenameAfterSlash` | s3_manager.py:145 | the basename of `dir + name`, where `dir` ends in '/', is `name` |
| `PyPath.HeadAfterSlash` | s3_manager.py:147 | the head of `dir + name`, where `dir` ends in '/', is `dir` |
| `PyPath.SiblingPath` | s3_manager.py:147 | joining a name to the dirname of a path whose head ends in one '/' puts it after that head |
| `LocalDisk.Fs.IsDir` | s3_manager.py:150 | the model's "is a directory" test: a directory's path, or that path followed by one '/'. Such a path exists (s3_manager.py:59, :149, :172), `download_file` onto it (:110), `open` of it (:150) and `os.remove` of it (:173) raise, and the sweep's `isfile` (:168) skips it |
| `LocalDisk.Fs.Exists` | s3_manager.py:59 | `os.path.exists`: a regular file or a directory, the test used at s3_manager.py:59, :149 and :172 |
| `FileUtils.UncompressedName` | file_utils.py:9 | the output name is a prefix of the input that does not end in '.', 'g' or 'z'; all that was removed is such characters |
| `FileUtils.UncompressedNameExamples` | file_utils.py:9 | `file1.gz` gives `file1`, but `catalog.gz` gives `catalo` and `tracking.log.gz` gives `tracking.lo` |
| `FileUtils.UncompressedNameIdempotent` | file_utils.py:9 | stripping twice gives the same name as stripping once |
| `FileUtils.UncompressedNameStopsAtSlash` | file_utils.py:9 | stripping `dir + name` strips only `name` when `dir` ends in '/' |
| `FileUtils.Extract` | file_utils.py:6-13 | extraction raises only for a truncated stream on a readable archive with a writable output; it touches no directory and no progress file; it adds the output file or nothing |
| `FileUtils.Uncompress.ExtractFiles` | file_utils.py:6-13 | the method changes the disk as `Extract` says and reports the same exception |
| `S3Manager.IsFolderKey` | s3_manager.py:52 | `file_key.endswith("/")`: a non-empty key whose last character is '/' |
| `S3Manager.LocalPath` | s3_manager.py:58 | where a key is staged: `local_file_path + key.split("/")[-1]`, the same rule as s3_manager.py:102; see `JsonPathOfStaged` and `PaddedKeyNames` |
| `S3Manager.KnownKeys` | s3_manager.py:40-43 | the stripped lines of `downloaded_files.txt` in file order, empty when the file is absent; see `RecordedKeysSkipped` and `UnstrippedKeyNeverKnown` |
| `S3Manager.KeysAt` | s3_manager.py:83-97 | the set of stripped lines of a progress file, empty when the file is absent; see `LoadInSync` and `PersistLoads` |
| `S3Manager.JsonPath` | s3_manager.py:145-147 | `join(dirname(p), basename(p).rstrip(".gz"))`; see `JsonPathOfStaged` |
| `S3Manager.Subfolder` | s3_manager.py:53 | `file_key[len(prefix):-1]` with Python's slice clamping; see `SubfolderSplitsKey` |
| `S3ManagerProofs.SubfolderSplitsKey` | s3_manager.py:53 | when the key is longer than the prefix, the key is its first `len(prefix)` characters, the subfolder, then '/'; otherwise the subfolder is empty |
| `S3Manager.Listing` | s3_manager.py:32-37 | `response["Contents"]` for the base prefix plus the prefix; the `KeyError('Contents')` when the store has no keys for it; the prefix carried by `NoContents` is the model's annotation, not part of the exception (see `EmptyListingFails`) |
| `S3Manager.Candidates` | s3_manager.py:31-65 | the result of `list_files(prefix)`: the listing's error, or the loop over it; its properties are `CandidatesEligible` and `ScanIsConcatenation` |
| `S3Manager.Scan` | s3_manager.py:46-65 | the loop of `list_files` over the listed keys, in order; see `ScanEligible` and `ScanFailurePersists` |
| `S3Manager.Visit` | s3_manager.py:47-63 | one iteration: known keys skipped, folders listed recursively and appended, staged keys skipped, other keys kept; see `VisitIsConcat` |
| `S3Manager.Download` | s3_manager.py:108-112 | `download_file`: raises when the oracle says so or the path is a directory, otherwise adds the archive; see `FailedDownloadChangesNothing` |
| `S3Manager.Send` | s3_manager.py:144-160 | `send_file_to_endpoint`: the post and deletion of the JSON path, as `SendShape` and `JsonPathOfStaged` state |
| `S3Manager.GlobVisible` | s3_manager.py:166 | the names `glob("*")` returns: non-empty and not starting with '.' |
| `S3Manager.Swept` | s3_manager.py:166-169 | the regular files `glob(join(dirname(file_path), "*"))` returns; see `RemoveSweeps` |
| `S3Manager.Remove` | s3_manager.py:162-176 | `remove_files`: the sweep, then the archive; see `RemoveSweeps` and `RemoveShape` |
| `S3Manager.Persist` | s3_manager.py:125-137 | one "w"-mode rewrite of a progress file from a non-empty set; see `PersistLoads` and `PersistKeepsOthers` |
| `S3Manager.TryAttempt` | s3_manager.py:107-119 | the `try` block; see `AttemptShape`, `DeliveredAttempt` and the other attempt lemmas |
| `S3Manager.Step` | s3_manager.py:99-137 | one loop iteration of `download_files`; see `StepSets` and `StepKeepsSync` |
| `S3Manager.Settle` | s3_manager.py:121-137 | the `except` branch and both rewrites; see `SettleKeepsSync` |
| `S3Manager.Run` | s3_manager.py:99-137 | the loop over the candidates; see `RunGrows`, `RunPrefixGrows` and `RunKeepsSync` |
| `S3Manager.Load` | s3_manager.py:83-97 | the two sets loaded before the loop; see `LoadInSync` |
| `S3Manager.Sync` | s3_manager.py:77-140 | `download_files`: the listing's error, or the loop's final state; see `SyncLeavesFilesInSync` and `NextRunSkipsProcessed` |
| `S3Manager.ScanFailurePersists` | s3_manager.py:46-54 | once the loop over part of a listing has raised, the whole listing raises the same |
| `S3Manager.Manager.constructor` | s3_manager.py:10-24 | the staging directory is `expanduser("~/")` and nothing is posted yet |
| `S3Manager.Manager.ListFiles` | s3_manager.py:31-65 | `list_files(prefix)` returns the candidates `Candidates` specifies, or its error |
| `S3Manager.Manager.ListKey` | s3_manager.py:46-63 | one iteration of the loop of `list_files` does what `Visit` says, and the local list keeps every recorded key |
| `S3Manager.Manager.DownloadFile` | s3_manager.py:108-112 | the archive is written to its staged path unless the download raises or the path is a directory |
| `S3Manager.Manager.SendFileToEndpoint` | s3_manager.py:144-160 | posts the JSON file beside the archive and deletes it; a missing file is only reported; a directory or a failed post raises |
| `S3Manager.Manager.RemoveFiles` | s3_manager.py:162-176 | deletes every visible file of the directory, then the file itself if it still exists; raises only on a directory |
| `S3Manager.Manager.WriteKeys` | s3_manager.py:125-137 | a non-empty set is written to its progress file in full; an empty one leaves the file alone |
| `S3Manager.Manager.TryDownload` | s3_manager.py:107-119 | the `try` block: download, extract, record, forward, clean up, as `TryAttempt` says |
| `S3Manager.Manager.HandleKey` | s3_manager.py:99-137 | one iteration of `download_files`, as `Step` says |
| `S3Manager.Manager.RecordOutcome` | s3_manager.py:121-137 | the `except` branch and the two file rewrites, as `Settle` says |
| `S3Manager.Manager.ReadProgress` | s3_manager.py:83-97 | both key sets are loaded from their files; an absent file gives the empty set |
| `S3Manager.Manager.ProcessAll` | s3_manager.py:99-137 | the loop over the candidates ends in the state `Run` specifies |
| `S3Manager.Manager.DownloadFiles` | s3_manager.py:77-140 | a listing error aborts with nothing changed; otherwise the disk and the posts are those of `Sync` |
| `S3ManagerProofs.CandidatesEligible` | s3_manager.py:40-63 | `list_files` never returns a key recorded in `downloaded_files.txt`, a folder key, or a key whose staged path exists; every key it returns was listed |
| `S3ManagerProofs.ScanEligible` | s3_manager.py:46-63 | the same for the loop over one listing |
| `S3ManagerProofs.EmptyListingFails` | s3_manager.py:37 | a response without "Contents" is a `KeyError`, not an empty result |
| `S3ManagerProofs.ScanIsConcatenation` | s3_manager.py:46-65 | the result is each listed key's contribution in catalog order, a folder's listing spliced in at its position, duplicates kept, the first failure raised |
| `S3ManagerProofs.VisitIsConcat` | s3_manager.py:48-63 | one iteration appends the key's contribution to what came before |
| `S3ManagerProofs.RepeatedKeyReturnedTwice` | s3_manager.py:46-65 | a fresh file key listed twice is returned twice |
| `S3ManagerProofs.FreshKeysAllReturned` | s3_manager.py:56-63 | a listing of fresh file keys is returned whole, in order |
| `S3ManagerProofs.ThreeUploadedKeys` | s3_test.py:17-26 | three uploaded archives, none fetched before, are the three candidates of the listing from the empty prefix |
| `S3ManagerProofs.SelfListedFolderRaises` | s3_manager.py:52-54 | a listing holding its own prefix's folder marker raises, whatever the budget |
| `S3ManagerProofs.SelfListedFolderHitsRecursionLimit` | s3_manager.py:52-54 | when no folder key comes before the marker, what it raises is exactly the `RecursionError` |
| `S3ManagerProofs.FileKeysScanOk` | s3_manager.py:46-63 | the loop over a listing without folder keys does not raise |
| `S3ManagerProofs.NestedListingPrefix` | s3_manager.py:53-54 | a folder key under `prefix` is listed at `prefix + sub`; a folder listed from the top level under base prefix `base` is listed at `base + base + sub` |
| `S3ManagerProofs.MarkerVisitRaises` | s3_manager.py:52-54 | visiting the own-prefix marker raises once the nested listing raises |
| `S3ManagerProofs.AttemptShape` | s3_manager.py:107-123 | an attempt touches no progress file, no directory and no error set; it adds the key to the processed set exactly when download and extraction succeed; it fails otherwise; it only appends posts |
| `S3ManagerProofs.JsonPathOfStaged` | s3_manager.py:145-147 | the JSON path `send_file_to_endpoint` derives is the file `extract_files` wrote |
| `S3ManagerProofs.RemoveSweeps` | s3_manager.py:162-176 | after `remove_files` a file remains exactly when it is neither the archive nor visible in its directory; it raises only on a directory |
| `S3ManagerProofs.FailedDownloadChangesNothing` | s3_manager.py:108-112 | a raising download changes nothing and fails the attempt |
| `S3ManagerProofs.TruncatedArchiveIsError` | s3_manager.py:115-116 | a truncated stream fails the attempt before the key is recorded, leaving the archive and the partial JSON |
| `S3ManagerProofs.DeliveredAttempt` | s3_manager.py:107-119 | on the success path, whatever the status, the key is processed, the JSON is posted once and deleted, the directory is swept, and no other file changes |
| `S3ManagerProofs.UncreatedJsonIsNotPosted` | s3_manager.py:159-160 | when the output cannot be created, the key is processed and nothing is posted |
| `S3ManagerProofs.PostFailureKeepsBoth` | s3_manager.py:116-123 | a raising post leaves the key in both sets and leaves the archive and the JSON behind |
| `S3ManagerProofs.StepSets` | s3_manager.py:99-123 | a processed key is skipped; otherwise the sets grow by that key only, and it ends up in one of them |
| `S3ManagerProofs.RunGrows` | s3_manager.py:99-123 | an exception never stops the loop: every candidate ends the run in a set, and the sets grow only by candidates |
| `S3ManagerProofs.RunPrefixGrows` | s3_manager.py:99-123 | the sets and the posts only grow as the loop goes on |
| `S3ManagerProofs.DuplicateSkipped` | s3_manager.py:103-105 | a later duplicate of a key already recorded as processed is skipped |
| `S3ManagerProofs.ErrorSetNotConsulted` | s3_manager.py:91-105 | the error set never affects skipping, posting or the files, so a key in the error set only is attempted again whenever it is listed again |
| `S3ManagerProofs.LoadedKeysStorable` | s3_manager.py:86-87 | keys loaded from a progress file are stripped and hold no line break |
| `S3ManagerProofs.LoadInSync` | s3_manager.py:83-97 | the loaded sets are exactly what the files load back as, their keys are storable, and each file loads back as the lines of its set |
| `S3ManagerProofs.PersistLoads` | s3_manager.py:125-137 | a file rewritten from a non-empty set loads back as the lines of that set, for any keys, and as exactly the set when its keys are storable |
| `S3ManagerProofs.PersistKeepsOthers` | s3_manager.py:125-137 | rewriting one progress file leaves the other's keys unchanged |
| `S3ManagerProofs.WrittenSetLoads` | s3_manager.py:126-129 | a set written in the interpreter's iteration order loads back as the lines of its keys |
| `S3ManagerProofs.RewriteKeepsSync` | s3_manager.py:125-137 | a file that loads back as the lines of a set, rewritten after the set grew, loads back as the lines of the grown set, including when the set is still empty and the file is left alone |
| `S3ManagerProofs.SettleKeepsSync` | s3_manager.py:121-137 | after the `except` branch and the rewrites of the non-empty sets, each file loads back as the lines of its set |
| `S3ManagerProofs.StepKeepsSync` | s3_manager.py:99-137 | after each attempted key, whatever the keys, both files load back as the lines of the two sets |
| `S3ManagerProofs.RunKeepsSync` | s3_manager.py:99-137 | the files load back as the lines of the sets throughout the loop, whatever the keys |
| `S3ManagerProofs.FileLinesMonotone` | s3_manager.py:129 | writing more keys gives more lines back |
| `S3ManagerProofs.FileKeysMonotone` | s3_manager.py:99-137 | each file's key set only grows over the run, whatever the keys |
| `S3ManagerProofs.SyncLeavesFilesInSync` | s3_manager.py:77-137 | a completed `download_files` leaves both files loading back as the lines of its sets, and as exactly its sets when every listed key is storable |
| `S3ManagerProofs.NextRunSkipsProcessed` | s3_manager.py:40-50 | a storable key recorded as processed is never a candidate of a later listing; when every listed key is storable, no processed key is |
| `S3ManagerProofs.RecordedKeysSkipped` | s3_manager.py:40-50 | with the files loading back as the lines of the sets, a storable processed key is not listed again |
| `S3ManagerProofs.UnstrippedKeyNeverKnown` | s3_manager.py:43-48 | a key with whitespace at an end never matches a line of `downloaded_files.txt` |
| `S3ManagerProofs.PaddedKeyNames` | s3_manager.py:145-146 | the key " a.gz" is staged as "/h/ a.gz" and its JSON file is "/h/ a" |
| `S3ManagerProofs.PaddedAttempt` | s3_manager.py:107-119 | the first attempt at that key posts "/h/ a" and leaves the staging directory empty |
| `S3ManagerProofs.PaddedKeyListed` | s3_manager.py:31-65 | with no staged archive, the listing returns that key, since it is never known |
| `S3ManagerProofs.PlainKeyNames` | s3_manager.py:145-146 | the key "a.gz" is staged as "/h/a.gz" and its JSON file is "/h/a" |
| `S3ManagerProofs.SingleKeyListed` | s3_manager.py:31-65 | with nothing staged and nothing known, the listing returns "a.gz" |
| `S3ManagerProofs.StagedKeySkipped` | s3_manager.py:58-61 | with its archive still staged and no processed keys on file, the listing returns nothing |
| `S3ManagerProofs.TruncatedAttemptStays` | s3_manager.py:107-116 | a truncated attempt at "a.gz" fails before recording the key and leaves the archive and the partial JSON staged |
| `S3ManagerProofs.TruncatedKeyNotRelisted` | s3_manager.py:77-137 | a run with a truncated archive puts the key in the error set only, posts nothing, and the next listing does not return the key |
| `S3ManagerProofs.PaddedKeyDeliveredTwice` | s3_manager.py:77-137 | a run records " a.gz" as processed and posts its JSON, yet the next listing returns the key again |

## Left out

- The boto3 client, `decouple.config` and the bucket name (s3_manager.py:10-24): configuration and a foreign client. The store is a map from full prefix to keys. The configured prefix is a field of `Env`.
- Pagination of `list_objects_v2`: the model's store returns one complete response per prefix, as the code reads only the first page.
- `requests.post` and the HTTP transport (s3_manager.py:152): an oracle says whether the post raises or which status comes back.
- The gzip codec and file contents (file_utils.py:8-11): an oracle says whether the stream inflates, is not gzip, is truncated, or whether the output cannot be created. JSON payloads are known by path only.
- `calculate_checksum` (file_utils.py:15-20): never called by the pipeline.
- `list_folders` (s3_manager.py:68-75) and `print_if_enabled` and all console output (s3_manager.py:26-28): output only.
- The module-level example run (s3_manager.py:180-182).
- `io.UnsupportedOperation` while reading a progress file (s3_manager.py:88-89, 96-97), and other I/O errors such as permissions or a full disk: not modelled.
- The order in which Python iterates a set is an oracle. The file round trip is proved for any order that lists each key once.
- The progress files are taken to live apart from the staging directory, i.e. the working directory is not `~/`. The sweep of `remove_files` does not see them.
- Path normalisation: paths are compared as strings. A directory is named by its path with at most one trailing '/'.
- The interpreter's recursion limit is a budget of nested `list_files` calls. In Python the exact depth at which `RecursionError` is raised depends on the stack.
- `PersistLoads`: the file loads back as exactly the written set only when its keys are storable, i.e. stripped and free of line breaks. The file's text holds the keys verbatim; for other keys it loads back as `FileLines` of the set: each key stripped, and a key holding a line break split into its lines.
- `StepKeepsSync`: states that each file loads back as `FileLines` of its set. That is the set itself only for storable keys.
- `RunKeepsSync`: as for `StepKeepsSync`, the files load back as `FileLines` of the sets. They load back as the sets exactly only when every key is storable.
- `SyncLeavesFilesInSync`: the exact-set clause is proved only when every listed key is storable. Otherwise a key with whitespace at an end or a line break inside is written verbatim but does not load back as itself. See `PaddedKeyDeliveredTwice`.
- `NextRunSkipsProcessed`: covers storable processed keys only. A processed key with whitespace at an end is listed again. See `PaddedKeyDeliveredTwice`.

=== FILE: file_utils.dfy ===
/**
 * `Uncompress.extract_files` (file_utils.py): the name of the decompressed
 * file, `file.rstrip('.gz')`, and the effect of extraction on the file
 * system. The gzip codec itself is not modelled: what it does with the bytes
 * is an outcome supplied from outside.
 */
module FileUtils {
  import opened PyText
  import opened LocalDisk

  /** The argument of `rstrip('.gz')`: a set of characters, not a suffix. */
  predicate IsGzChar(c: char) {
    c == '.' || c == 'g' || c == 'z'
  }

  /**
   * The path `extract_files` writes to: the input with its longest trailing
   * run of '.', 'g' and 'z' characters removed.
   */
  function UncompressedName(file: string): (r: string)
    ensures |r| <= |file| && r == file[..|r|]
    ensures r == [] || !IsGzChar(r[|r| - 1])
    ensures forall k | |r| <= k < |file| :: IsGzChar(file[k])
  {
    RStrip(file, IsGzChar)
  }

  /** The rule strips characters, not the ".gz" suffix. */
  lemma UncompressedNameExamples()
    ensures UncompressedName("file1.gz") == "file1"
    ensures UncompressedName("catalog.gz") == "catalo"
    ensures UncompressedName("tracking.log.gz") == "tracking.lo"
    ensures UncompressedName("events.json") == "events.json"
  {
    var a := UncompressedName("file1.gz");
    assert "file1.gz"[4] == '1' && "file1.gz"[5] == '.';
    assert |a| == 5;
    assert a == "file1.gz"[..5] == "file1";
    var b := UncompressedName("catalog.gz");
    assert "catalog.gz"[5] == 'o' && "catalog.gz"[6] == 'g';
    assert |b| == 6;
    assert b == "catalog.gz"[..6] == "catalo";
    var c := UncompressedName("tracking.log.gz");
    assert "tracking.log.gz"[10] == 'o' && "tracking.log.gz"[11] == 'g';
    assert |c| == 11;
    assert c == "tracking.log.gz"[..11] == "tracking.lo";
  }

  /** Stripping twice gives the same name as stripping once. */
  lemma UncompressedNameIdempotent(file: string)
    ensures UncompressedName(UncompressedName(file)) == UncompressedName(file)
  {
  }

  /**
   * Stripping stops at '/', since '/' is not one of the stripped
   * characters: stripping a full path equals stripping its last component.
   */
  lemma {:induction false} UncompressedNameStopsAtSlash(dir: string, name: string)
    requires dir != [] && dir[|dir| - 1] == '/'
    ensures UncompressedName(dir + name) == dir + UncompressedName(name)
    decreases |name|
  {
    if name != [] && IsGzChar(name[|name| - 1]) {
      assert (dir + name)[..|dir + name| - 1] == dir + name[..|name| - 1];
      UncompressedNameStopsAtSlash(dir, name[..|name| - 1]);
    } else if name == [] {
      assert dir + name == dir;
    }
  }

  /**
   * What reading the archive does, as the outside world decides it:
   * Inflated   - the stream decompresses;
   * BadGzip    - not a gzip stream: `BadGzipFile`, an `OSError`;
   * Truncated  - the stream ends early or its data is corrupt: `EOFError`
   *              or `zlib.error`, neither of them an `OSError`;
   * CannotCreate - opening the output file fails with an `OSError`.
   */
  datatype Extraction = Inflated | BadGzip | Truncated | CannotCreate

  /**
   * The effect of `Uncompress.extract_files(file)`. The archive is opened
   * lazily, the output file is created before the archive is read, and only
   * `OSError` is caught: so a bad archive still leaves an output file, and
   * only a truncated or corrupt stream raises.
   */
  function Extract(fs: Fs, file: string, outcome: Extraction): (e: Effect)
    ensures e.fs.dirs == fs.dirs && e.fs.texts == fs.texts
    ensures e.raised <==> outcome == Truncated && file in fs.files && !fs.IsDir(UncompressedName(file))
    ensures e.fs.files == fs.files + {UncompressedName(file)} || e.fs.files == fs.files
    ensures UncompressedName(file) in e.fs.files <==>
      UncompressedName(file) in fs.files ||
      (file in fs.files && !fs.IsDir(UncompressedName(file)) && outcome != CannotCreate)
  {
    var out := UncompressedName(file);
    if file !in fs.files || fs.IsDir(out) || outcome == CannotCreate then
      Effect(fs, false)
    else
      Effect(fs.(files := fs.files + {out}), outcome == Truncated)
  }

  class Uncompress {
    /** `Uncompress.extract_files(file)`; returns whether it raised. */
    static method ExtractFiles(disk: Disk, file: string, outcome: Extraction) returns (raised: bool)
      modifies disk
      ensures Effect(disk.View(), raised) == Extract(old(disk.View()), file, outcome)
    {
      var out := UncompressedName(file);
      raised := false;
      if file in disk.files && !disk.View().IsDir(out) && outcome != CannotCreate {
        disk.files := disk.files + {out};
        raised := outcome == Truncated;
      }
    }
  }
}

=== FILE: local_disk.dfy ===
/**
 * The local file system the pipeline works in. Regular files are known by
 * path only (gzip archives and JSON payloads keep no content here);
 * directories are fixed for the run; the two progress files are kept with
 * their text, in a namespace of their own (paths relative to the working
 * directory).
 */
module LocalDisk {

  /**
   * A snapshot of the file system. `dirs` holds each directory under its
   * path without a trailing slash ("/" for the root).
   */
  datatype Fs = Fs(files: set<string>, dirs: set<string>, texts: map<string, string>)
  {
    /** Whether `p` names a directory: a directory's path, or that path followed by one '/'. */
    predicate IsDir(p: string) {
      p in dirs || (p != [] && p[|p| - 1] == '/' && p[..|p| - 1] in dirs)
    }

    /** `os.path.exists(p)` for a path outside the progress-file namespace. */
    predicate Exists(p: string) {
      p in files || IsDir(p)
    }
  }

  /** The file system after a call, and whether the call raised. */
  datatype Effect = Effect(fs: Fs, raised: bool)

  /** The file system as a mutable object shared by the downloader and the extractor. */
  class Disk {
    var files: set<string>
    const dirs: set<string>
    var texts: map<string, string>

    function View(): Fs
      reads this
    {
      Fs(files, dirs, texts)
    }

    constructor (fs: Fs)
      ensures View() == fs
    {
      files := fs.files;
      dirs := fs.dirs;
      texts := fs.texts;
    }
  }
}

=== FILE: py_path.dfy ===
/**
 * The POSIX `os.path` functions the pipeline uses to name its staged files:
 * `basename`, `dirname`, `join` and `expanduser("~/")`. Paths are strings
 * compared as written; no normalisation is done.
 */
module PyPath {
  import opened PyText

  predicate IsSlash(c: char) {
    c == '/'
  }

  /** `os.path.basename(p)`: the part after the last '/'; the same string as `p.split("/")[-1]`. */
  function Basename(p: string): (r: string)
    ensures |r| <= |p|
    ensures '/' !in r
    ensures |r| < |p| ==> p[|p| - |r| - 1] == '/'
  {
    LastSegment(p)
  }

  /** `p[:p.rfind('/') + 1]`: everything up to and including the last '/'. */
  function Head(p: string): (r: string)
    ensures |r| <= |p| && forall i | 0 <= i < |r| :: r[i] == p[i]
    ensures r == [] || r[|r| - 1] == '/'
  {
    if p == [] || p[|p| - 1] == '/' then p else Head(p[..|p| - 1])
  }

  /** A path is its head followed by its basename. */
  lemma {:induction false} HeadThenBasename(p: string)
    ensures Head(p) + Basename(p) == p
    decreases |p|
  {
    if p != [] && p[|p| - 1] != '/' {
      var init := p[..|p| - 1];
      HeadThenBasename(init);
      assert Head(p) + Basename(p) == Head(init) + (Basename(init) + [p[|p| - 1]]);
      InitLast(p);
    }
  }

  /** `os.path.dirname(p)`: the head before the basename, trailing slashes removed unless it is all slashes. */
  function Dirname(p: string): string
  {
    var head := Head(p);
    if head != [] && RStrip(head, IsSlash) != [] then RStrip(head, IsSlash) else head
  }

  /**
   * The dirname is the head before the basename with its trailing slashes
   * dropped; only a head made of slashes keeps them.
   */
  lemma DirnameTrimsHead(p: string)
    ensures |Dirname(p)| <= |Head(p)| && forall i | 0 <= i < |Dirname(p)| :: Dirname(p)[i] == p[i]
    ensures forall k | |Dirname(p)| <= k < |Head(p)| :: p[k] == '/'
    ensures Dirname(p) == [] || Dirname(p)[|Dirname(p)| - 1] != '/' || forall i | 0 <= i < |Dirname(p)| :: p[i] == '/'
    ensures (forall i | 0 <= i < |Head(p)| :: p[i] == '/') ==> Dirname(p) == Head(p)
  {
  }

  /** `os.path.join(a, b)` for two components. */
  function Join(a: string, b: string): string
  {
    if b != [] && b[0] == '/' then b
    else if a == [] || a[|a| - 1] == '/' then a + b
    else a + "/" + b
  }

  /**
   * A joined path ends in its second component. Unless that component is
   * absolute, it starts with the first, and a single '/' separates the two
   * exactly when the first is non-empty and does not already end in one.
   */
  lemma JoinEnds(a: string, b: string)
    ensures |b| <= |Join(a, b)| && Join(a, b)[|Join(a, b)| - |b|..] == b
    ensures b == [] || b[0] != '/' ==> |a| <= |Join(a, b)| && Join(a, b)[..|a|] == a
    ensures (b == [] || b[0] != '/') && (a == [] || a[|a| - 1] == '/') ==> |Join(a, b)| == |a| + |b|
    ensures (b == [] || b[0] != '/') && a != [] && a[|a| - 1] != '/' ==>
      |Join(a, b)| == |a| + 1 + |b| && Join(a, b)[|a|] == '/'
    ensures b != [] && b[0] == '/' ==> Join(a, b) == b
  {
  }

  /**
   * `os.path.expanduser("~/")` when the home directory is `home`: the home
   * directory without its trailing slashes, then one '/'.
   */
  function ExpandUser(home: string): (r: string)
    ensures |r| >= 1 && r[|r| - 1] == '/'
    ensures |r| >= 2 ==> r[|r| - 2] != '/'
    ensures |r| - 1 <= |home| && forall i | 0 <= i < |r| - 1 :: r[i] == home[i]
    ensures forall k | |r| - 1 <= k < |home| :: home[k] == '/'
  {
    RStrip(home, IsSlash) + "/"
  }

  /** The basename of a path whose directory part ends in '/' is the name after it. */
  lemma {:induction false} BasenameAfterSlash(dir: string, name: string)
    requires dir != [] && dir[|dir| - 1] == '/'
    requires '/' !in name
    ensures Basename(dir + name) == name
    decreases |name|
  {
    var p := dir + name;
    if name == [] {
      assert p == dir;
    } else {
      var init := name[..|name| - 1];
      var q := p[..|p| - 1];
      assert q == dir + init;
      assert p[|p| - 1] == name[|name| - 1] != '/';
      assert LastSegment(p) == LastSegment(q) + [p[|p| - 1]];
      BasenameAfterSlash(dir, init);
      InitLast(name);
    }
  }

  /** The head of a path whose directory part ends in '/' is that directory part. */
  lemma {:induction false} HeadAfterSlash(dir: string, name: string)
    requires dir != [] && dir[|dir| - 1] == '/'
    requires '/' !in name
    ensures Head(dir + name) == dir
    decreases |name|
  {
    var p := dir + name;
    if name == [] {
      assert p == dir;
    } else {
      var init := name[..|name| - 1];
      assert p[..|p| - 1] == dir + init;
      assert p[|p| - 1] == name[|name| - 1] != '/';
      HeadAfterSlash(dir, init);
    }
  }

  /** Joining a name to the dirname of a path whose head ends in exactly one '/' puts it after that head. */
  lemma SiblingPath(p: string, dir: string, other: string)
    requires Head(p) == dir
    requires |dir| >= 1 && dir[|dir| - 1] == '/'
    requires |dir| >= 2 ==> dir[|dir| - 2] != '/'
    requires '/' !in other
    ensures Join(Dirname(p), other) == dir + other
  {
    SingleTrailingSlash(dir);
    var stem := dir[..|dir| - 1];
    if stem == [] {
      assert Dirname(p) == dir;
    } else {
      assert Dirname(p) == stem;
      assert stem[|stem| - 1] != '/';
      assert other == [] || other[0] != '/';
      assert Join(stem, other) == stem + "/" + other;
      InitLast(dir);
      assert stem + "/" == dir;
    }
  }

  /** Stripping the slashes off a directory that ends in exactly one '/' removes that '/'. */
  lemma SingleTrailingSlash(dir: string)
    requires |dir| >= 1 && dir[|dir| - 1] == '/'
    requires |dir| >= 2 ==> dir[|dir| - 2] != '/'
    ensures RStrip(dir, IsSlash) == dir[..|dir| - 1]
  {
    var init := dir[..|dir| - 1];
    assert init == [] || !IsSlash(init[|init| - 1]);
  }
}

=== FILE: py_text.dfy ===
/**
 * The Python string operations the pipeline relies on: `str.rstrip(chars)`,
 * `str.strip()`, `str.split("/")[-1]`, and reading a text file with
 * `readlines()` (universal newlines) followed by `line.strip()`.
 */
module PyText {

  /** The characters for which Python's `str.isspace()` holds. */
  predicate IsSpace(c: char) {
    c == ' ' || '\t' <= c <= '\r' || '\U{1C}' <= c <= '\U{1F}' || c == '\U{85}' || c == '\U{A0}' ||
    c == '\U{1680}' || '\U{2000}' <= c <= '\U{200A}' || c == '\U{2028}' || c == '\U{2029}' ||
    c == '\U{202F}' || c == '\U{205F}' || c == '\U{3000}'
  }

  // Sequence facts, proved apart from the string functions that use them.

  lemma InitLast<T>(s: seq<T>)
    requires s != []
    ensures s[..|s| - 1] + [s[|s| - 1]] == s
  {
  }

  lemma AppendEmpty<T>(s: seq<T>)
    ensures s + [] == s && [] + s == s
  {
  }

  lemma DropAppend<T>(a: seq<T>, b: seq<T>, n: nat)
    requires n <= |a|
    ensures (a + b)[n..] == a[n..] + b
  {
  }

  lemma AppendAssoc<T>(x: seq<T>, y: seq<T>, z: seq<T>)
    ensures x + (y + z) == (x + y) + z
  {
  }

  lemma HeadTail<T>(s: seq<T>)
    requires s != []
    ensures [s[0]] + s[1..] == s
  {
  }

  /** `s.rstrip(chars)`: drops the longest suffix of `s` made only of characters `chars` accepts. */
  function RStrip(s: string, chars: char -> bool): (r: string)
    ensures |r| <= |s| && forall i | 0 <= i < |r| :: r[i] == s[i]
    ensures r == [] || !chars(r[|r| - 1])
    ensures forall k | |r| <= k < |s| :: chars(s[k])
  {
    if s == [] || !chars(s[|s| - 1]) then s else RStrip(s[..|s| - 1], chars)
  }

  /** `s.lstrip(chars)`: drops the longest prefix of `s` made only of characters `chars` accepts. */
  function LStrip(s: string, chars: char -> bool): (r: string)
    ensures |r| <= |s| && (r != [] ==> r[|r| - 1] == s[|s| - 1])
    ensures r == [] || !chars(r[0])
    ensures forall k | 0 <= k < |s| - |r| :: chars(s[k])
    ensures forall c | c in r :: c in s
  {
    if s == [] || !chars(s[0]) then s else LStrip(s[1..], chars)
  }

  /** What `LStrip` keeps is a suffix of its input. */
  lemma {:induction false} LStripSuffix(s: string, chars: char -> bool)
    ensures LStrip(s, chars) == s[|s| - |LStrip(s, chars)|..]
    decreases |s|
  {
    if s != [] && chars(s[0]) {
      LStripSuffix(s[1..], chars);
      assert s[1..][|s| - 1 - |LStrip(s[1..], chars)|..] == s[|s| - |LStrip(s, chars)|..];
    }
  }

  /** A string that `str.strip()` leaves alone. */
  predicate Stripped(s: string) {
    s == [] || (!IsSpace(s[0]) && !IsSpace(s[|s| - 1]))
  }

  /** `s.strip()` with no argument: whitespace removed from both ends. */
  function Strip(s: string): (r: string)
    ensures Stripped(r)
    ensures Stripped(s) ==> r == s
    ensures forall c :: c in r ==> c in s
  {
    var t := RStrip(s, IsSpace);
    assert forall c | c in t :: c in s;
    LStrip(t, IsSpace)
  }

  /** `r` is the slice of `s` at `i`, and all of `s` around it is whitespace. */
  predicate TrimmedAt(s: string, r: string, i: int) {
    && 0 <= i <= |s| - |r|
    && r == s[i..i + |r|]
    && (forall k | 0 <= k < i :: IsSpace(s[k]))
    && (forall k | i + |r| <= k < |s| :: IsSpace(s[k]))
  }

  /**
   * `s.strip()` is the slice of `s` left once its leading and trailing
   * whitespace are cut: everything before and after the slice is
   * whitespace, and (by `Strip`'s contract) the slice neither starts nor
   * ends with whitespace, which makes it the only such slice.
   */
  lemma StripTrims(s: string)
    ensures exists i :: TrimmedAt(s, Strip(s), i)
  {
    var t := RStrip(s, IsSpace);
    var r := LStrip(t, IsSpace);
    LStripSuffix(t, IsSpace);
    var i := |t| - |r|;
    assert r == Strip(s);
    assert t == s[..|t|];
    assert r == s[i..i + |r|];
    assert forall k | 0 <= k < i :: IsSpace(s[k]) by {
      forall k | 0 <= k < i
        ensures IsSpace(s[k])
      {
        assert IsSpace(t[k]);
      }
    }
    assert forall k | i + |r| <= k < |s| :: IsSpace(s[k]);
    assert TrimmedAt(s, r, i);
  }

  /** `s.split("/")[-1]`: what follows the last '/' (all of `s` when it has none). */
  function LastSegment(s: string): (r: string)
    ensures |r| <= |s|
    ensures '/' !in r
    ensures |r| < |s| ==> s[|s| - |r| - 1] == '/'
  {
    if s == [] || s[|s| - 1] == '/' then [] else LastSegment(s[..|s| - 1]) + [s[|s| - 1]]
  }

  /** Universal-newline translation done by a text-mode read: "\r\n" and "\r" become "\n". */
  function TranslateNewlines(s: string): (r: string)
    ensures '\r' !in r
    ensures '\r' !in s ==> r == s
    ensures s != [] && s[|s| - 1] == '\n' ==> r != [] && r[|r| - 1] == '\n'
    decreases |s|
  {
    if s == [] then []
    else if s[0] == '\r' && |s| >= 2 && s[1] == '\n' then "\n" + TranslateNewlines(s[2..])
    else if s[0] == '\r' then "\n" + TranslateNewlines(s[1..])
    else [s[0]] + TranslateNewlines(s[1..])
  }

  /**
   * Translation works piece by piece: text that does not end in '\r' is
   * translated independently of what follows it.
   */
  lemma {:induction false} TranslateAppend(a: string, b: string)
    requires a == [] || a[|a| - 1] != '\r'
    ensures TranslateNewlines(a + b) == TranslateNewlines(a) + TranslateNewlines(b)
    decreases |a|
  {
    if a == [] {
      assert a + b == b;
    } else {
      var n := if a[0] == '\r' && |a| >= 2 && a[1] == '\n' then 2 else 1;
      var head := if a[0] == '\r' then "\n" else [a[0]];
      TranslateFirst(a, a, n, head);
      TranslateFirst(a + b, a, n, head);
      DropAppend(a, b, n);
      TranslateAppend(a[n..], b);
      AppendAssoc(head, TranslateNewlines(a[n..]), TranslateNewlines(b));
    }
  }

  /** How the translation starts on text `s` that begins like `a`. */
  lemma TranslateFirst(s: string, a: string, n: nat, head: string)
    requires a != [] && |a| <= |s| && s[..|a|] == a
    requires a[|a| - 1] != '\r'
    requires n == if a[0] == '\r' && |a| >= 2 && a[1] == '\n' then 2 else 1
    requires head == if a[0] == '\r' then "\n" else [a[0]]
    ensures n <= |a| && TranslateNewlines(s) == head + TranslateNewlines(s[n..])
  {
    assert s[0] == a[0];
    assert |a| >= 2 ==> s[1] == a[1];
  }

  /** Wherever it occurs, "\r\n" reads as one "\n". */
  lemma CrLfBecomesNewline(a: string, b: string)
    requires a == [] || a[|a| - 1] != '\r'
    ensures TranslateNewlines(a + "\r\n" + b) == TranslateNewlines(a) + "\n" + TranslateNewlines(b)
  {
    var u := "\r\n" + b;
    AppendAssoc(a, "\r\n", b);
    TranslateAppend(a, u);
    TranslateFirst(u, "\r\n", 2, "\n");
    DropAppend("\r\n", b, 2);
    AppendAssoc(TranslateNewlines(a), "\n", TranslateNewlines(b));
  }

  /** Wherever it occurs, a '\r' not followed by '\n' reads as one "\n". */
  lemma LoneCrBecomesNewline(a: string, b: string)
    requires a == [] || a[|a| - 1] != '\r'
    requires b == [] || b[0] != '\n'
    ensures TranslateNewlines(a + "\r" + b) == TranslateNewlines(a) + "\n" + TranslateNewlines(b)
  {
    var u := "\r" + b;
    AppendAssoc(a, "\r", b);
    TranslateAppend(a, u);
    DropAppend("\r", b, 1);
    assert TranslateNewlines(u) == "\n" + TranslateNewlines(b) by {
      assert u[0] == '\r' && (|u| >= 2 ==> u[1] != '\n');
    }
    AppendAssoc(TranslateNewlines(a), "\n", TranslateNewlines(b));
  }

  /** `s.split("\n")`: the pieces between newlines, always at least one. */
  function SplitNewlines(s: string): (r: seq<string>)
    ensures |r| >= 1
    ensures forall i | 0 <= i < |r| :: '\n' !in r[i]
    ensures '\r' !in s ==> forall i | 0 <= i < |r| :: '\r' !in r[i]
  {
    if s == [] then [[]]
    else if s[0] == '\n' then
      assert '\r' !in s ==> '\r' !in s[1..];
      [[]] + SplitNewlines(s[1..])
    else
      assert '\r' !in s ==> '\r' !in s[1..];
      var rest := SplitNewlines(s[1..]);
      [[s[0]] + rest[0]] + rest[1..]
  }

  /** `"\n".join(pieces)`. */
  function JoinNewlines(pieces: seq<string>): string
  {
    if pieces == [] then []
    else if |pieces| == 1 then pieces[0]
    else pieces[0] + "\n" + JoinNewlines(pieces[1..])
  }

  /** Joining the pieces of a split gives the text back. */
  lemma {:induction false} JoinSplit(s: string)
    ensures JoinNewlines(SplitNewlines(s)) == s
    decreases |s|
  {
    if s != [] {
      var rest := SplitNewlines(s[1..]);
      JoinSplit(s[1..]);
      if s[0] == '\n' {
        assert ([[]] + rest)[1..] == rest;
      } else {
        var pieces := [[s[0]] + rest[0]] + rest[1..];
        if |rest| > 1 {
          assert pieces[1..] == rest[1..];
          assert JoinNewlines(rest) == rest[0] + "\n" + JoinNewlines(rest[1..]);
        }
      }
      HeadTail(s);
    }
  }

  /** A line without a newline splits into itself. */
  lemma {:induction false} SplitLineFree(line: string)
    requires '\n' !in line
    ensures SplitNewlines(line) == [line]
    decreases |line|
  {
    if line != [] {
      SplitLineFree(line[1..]);
      HeadTail(line);
    }
  }

  /** Splitting joined line-free pieces gives the pieces back. */
  lemma {:induction false} SplitJoin(pieces: seq<string>)
    requires |pieces| >= 1
    requires forall i | 0 <= i < |pieces| :: '\n' !in pieces[i]
    ensures SplitNewlines(JoinNewlines(pieces)) == pieces
    decreases |pieces|
  {
    if |pieces| == 1 {
      SplitLineFree(pieces[0]);
    } else {
      SplitJoin(pieces[1..]);
      SplitAfterLine(pieces[0], JoinNewlines(pieces[1..]));
      HeadTail(pieces);
    }
  }

  /** The pieces without the empty one a final newline leaves. */
  function DropFinalEmpty(pieces: seq<string>): (r: seq<string>)
    ensures |r| <= |pieces| && forall i | 0 <= i < |r| :: r[i] == pieces[i]
    ensures pieces != [] && pieces[|pieces| - 1] != [] ==> r == pieces
  {
    if pieces != [] && pieces[|pieces| - 1] == [] then pieces[..|pieces| - 1] else pieces
  }

  /** The lines `readlines()` returns, without their newline: no piece after a final newline. */
  function RawLines(s: string): (r: seq<string>)
    ensures forall i | 0 <= i < |r| :: '\n' !in r[i]
  {
    DropFinalEmpty(SplitNewlines(s))
  }

  /** Each line stripped, in order. */
  function StripAll(lines: seq<string>): (r: seq<string>)
    ensures |r| == |lines|
    ensures forall i | 0 <= i < |r| :: r[i] == Strip(lines[i])
  {
    if lines == [] then [] else [Strip(lines[0])] + StripAll(lines[1..])
  }

  /** `[line.strip() for line in file.readlines()]` for a file whose text is `s`. */
  function ReadLines(s: string): (r: seq<string>)
    ensures forall i | 0 <= i < |r| :: Storable(r[i])
  {
    StripAll(RawLines(TranslateNewlines(s)))
  }

  /** `{line.strip() for line in file.readlines()}`. */
  function LoadKeys(s: string): set<string>
  {
    set line | line in ReadLines(s)
  }

  /** The text `file.writelines(f"{key}\n" for key in keys)` produces. */
  function RenderLines(keys: seq<string>): (r: string)
    ensures r == [] || r[|r| - 1] == '\n'
  {
    if keys == [] then [] else keys[0] + "\n" + RenderLines(keys[1..])
  }

  /** A key with no line break inside it. */
  predicate LineSafe(key: string) {
    '\n' !in key && '\r' !in key
  }

  /** A key that a progress file records and gives back unchanged. */
  predicate Storable(key: string) {
    LineSafe(key) && Stripped(key)
  }

  /** `order` lists every element of `s` exactly once. */
  predicate Enumerates(order: seq<string>, s: set<string>) {
    (forall i | 0 <= i < |order| :: order[i] in s) &&
    (forall k | k in s :: k in order) &&
    (forall i, j | 0 <= i < j < |order| :: order[i] != order[j])
  }

  lemma {:induction false} SplitAfterLine(key: string, tail: string)
    requires '\n' !in key
    ensures SplitNewlines(key + "\n" + tail) == [key] + SplitNewlines(tail)
    decreases |key|
  {
    if key == [] {
      assert key + "\n" + tail == "\n" + tail;
    } else {
      assert (key + "\n" + tail)[1..] == key[1..] + "\n" + tail;
      SplitAfterLine(key[1..], tail);
      assert [key[0]] + key[1..] == key;
    }
  }

  /** Splitting rendered keys at newlines gives the keys back, plus the empty piece after the last newline. */
  lemma {:induction false} SplitRendered(keys: seq<string>)
    requires forall i | 0 <= i < |keys| :: '\n' !in keys[i]
    ensures SplitNewlines(RenderLines(keys)) == keys + [[]]
    decreases |keys|
  {
    if keys != [] {
      SplitAfterLine(keys[0], RenderLines(keys[1..]));
      SplitRendered(keys[1..]);
      assert keys == [keys[0]] + keys[1..];
    }
  }

  /** Rendered line-safe keys contain no carriage return. */
  lemma {:induction false} RenderedHasNoCarriageReturn(keys: seq<string>)
    requires forall i | 0 <= i < |keys| :: LineSafe(keys[i])
    ensures '\r' !in RenderLines(keys)
    decreases |keys|
  {
    if keys != [] {
      RenderedHasNoCarriageReturn(keys[1..]);
    }
  }

  /** Reading back the rendered keys gives each key stripped, in the written order. */
  lemma ReadRenderedLines(keys: seq<string>)
    requires forall i | 0 <= i < |keys| :: LineSafe(keys[i])
    ensures |ReadLines(RenderLines(keys))| == |keys|
    ensures forall i | 0 <= i < |keys| :: ReadLines(RenderLines(keys))[i] == Strip(keys[i])
  {
    RenderedHasNoCarriageReturn(keys);
    SplitRendered(keys);
    assert RawLines(TranslateNewlines(RenderLines(keys))) == keys;
  }

  /** Round trip of a progress file: rendering an enumeration of storable keys and loading it back gives the same key set. */
  lemma LoadRenderedKeys(order: seq<string>, keys: set<string>)
    requires Enumerates(order, keys)
    requires forall k | k in keys :: Storable(k)
    ensures LoadKeys(RenderLines(order)) == keys
  {
    ReadRenderedLines(order);
    var lines := ReadLines(RenderLines(order));
    forall i | 0 <= i < |order|
      ensures lines[i] == order[i]
    {
      assert Storable(order[i]);
    }
    assert lines == order;
    assert forall k :: k in LoadKeys(RenderLines(order)) <==> k in order;
  }
  lemma {:induction false} JoinSnoc(pieces: seq<string>, last: string)
    requires |pieces| >= 1
    ensures JoinNewlines(pieces + [last]) == JoinNewlines(pieces) + "\n" + last
    decreases |pieces|
  {
    assert (pieces + [last])[1..] == pieces[1..] + [last];
    if |pieces| > 1 {
      JoinSnoc(pieces[1..], last);
    }
  }

  /** Writing lines is joining them with a final empty piece. */
  lemma {:induction false} RenderAsJoin(lines: seq<string>)
    ensures RenderLines(lines) == JoinNewlines(lines + [[]])
    decreases |lines|
  {
    if lines != [] {
      assert (lines + [[]])[1..] == lines[1..] + [[]];
      RenderAsJoin(lines[1..]);
    }
  }

  /**
   * `readlines()` loses nothing: writing its lines back, each followed by a
   * newline, gives the text, plus a newline when the text did not end in one.
   */
  lemma RawLinesRender(s: string)
    ensures RenderLines(RawLines(s)) == if s == [] || s[|s| - 1] == '\n' then s else s + "\n"
  {
    var pieces := SplitNewlines(s);
    var n := |pieces|;
    var init := pieces[..n - 1];
    var last := pieces[n - 1];
    JoinSplit(s);
    InitLast(pieces);
    if last == [] {
      RenderAsJoin(init);
    } else {
      RenderAsJoin(pieces);
      JoinSnoc(pieces, []);
      if n > 1 {
        JoinSnoc(init, last);
      }
      assert s[|s| - 1] == last[|last| - 1];
    }
  }

  /** Writing two key sequences one after the other writes their concatenation. */
  lemma {:induction false} RenderAppend(a: seq<string>, b: seq<string>)
    ensures RenderLines(a + b) == RenderLines(a) + RenderLines(b)
    decreases |a|
  {
    if a == [] {
      assert a + b == b;
    } else {
      assert (a + b)[1..] == a[1..] + b;
      RenderAppend(a[1..], b);
    }
  }

  /** Splitting written line-free keys followed by any text gives the keys, then the pieces of that text. */
  lemma SplitRenderedThen(lines: seq<string>, written: string, tail: string)
    requires forall i | 0 <= i < |lines| :: '\n' !in lines[i]
    requires written == RenderLines(lines)
    ensures SplitNewlines(written + tail) == lines + SplitNewlines(tail)
  {
    SplitRenderedTail(lines, tail);
  }

  lemma {:induction false} SplitRenderedTail(lines: seq<string>, tail: string)
    requires forall i | 0 <= i < |lines| :: '\n' !in lines[i]
    ensures SplitNewlines(RenderLines(lines) + tail) == lines + SplitNewlines(tail)
    decreases |lines|
  {
    if lines == [] {
      assert RenderLines(lines) + tail == tail;
    } else {
      var rest := RenderLines(lines[1..]);
      assert RenderLines(lines) == lines[0] + "\n" + rest;
      AppendAssoc(lines[0] + "\n", rest, tail);
      SplitAfterLine(lines[0], rest + tail);
      SplitRenderedTail(lines[1..], tail);
      AppendAssoc([lines[0]], lines[1..], SplitNewlines(tail));
      HeadTail(lines);
    }
  }

  /** The lines of text that ends in a newline are not affected by what follows it. */
  lemma RawLinesAppend(a: string, b: string)
    requires a == [] || a[|a| - 1] == '\n'
    ensures RawLines(a + b) == RawLines(a) + RawLines(b)
  {
    var lines := RawLines(a);
    RawLinesRender(a);
    SplitRenderedThen(lines, a, b);
    DropFinalEmptyAppend(lines, SplitNewlines(b));
  }

  lemma DropFinalEmptyAppend(lines: seq<string>, tail: seq<string>)
    requires tail != []
    ensures DropFinalEmpty(lines + tail) == lines + DropFinalEmpty(tail)
  {
    var p := lines + tail;
    if tail[|tail| - 1] == [] {
      assert p[..|p| - 1] == lines + tail[..|tail| - 1];
    }
  }

  /** Reading text that ends in a newline and then more text reads the two apart. */
  lemma ReadLinesAppend(a: string, b: string)
    requires a == [] || a[|a| - 1] == '\n'
    ensures ReadLines(a + b) == ReadLines(a) + ReadLines(b)
  {
    TranslateAppend(a, b);
    var ta := TranslateNewlines(a);
    var tb := TranslateNewlines(b);
    RawLinesAppend(ta, tb);
    StripAllAppend(RawLines(ta), RawLines(tb));
  }

  lemma {:induction false} StripAllAppend(x: seq<string>, y: seq<string>)
    ensures StripAll(x + y) == StripAll(x) + StripAll(y)
    decreases |x|
  {
    if x == [] {
      assert x + y == y;
    } else {
      DropAppend(x, y, 1);
      assert (x + y)[0] == x[0];
      StripAllAppend(x[1..], y);
      AppendAssoc([Strip(x[0])], StripAll(x[1..]), StripAll(y));
    }
  }

  /**
   * The keys a progress file gives back when it was written from `keys`,
   * one `f"{key}\n"` line each: each key's lines, stripped.
   */
  function FileLines(keys: set<string>): set<string>
  {
    set k, line | k in keys && line in ReadLines(k + "\n") :: line
  }

  /**
   * Loading a progress file written from any sequence of keys gives the
   * lines of those keys, whatever they contain: the lines of a key do not
   * depend on the keys around it.
   */
  lemma {:induction false} LoadRendered(order: seq<string>)
    ensures LoadKeys(RenderLines(order)) == FileLines(set k | k in order)
    decreases |order|
  {
    if order != [] {
      var init := order[..|order| - 1];
      var key := order[|order| - 1];
      LoadRendered(init);
      InitLast(order);
      RenderAppend(init, [key]);
      assert RenderLines([key]) == key + "\n" + [];
      AppendEmpty(key + "\n");
      ReadLinesAppend(RenderLines(init), key + "\n");
      var front := ReadLines(RenderLines(init));
      var own := ReadLines(key + "\n");
      assert ReadLines(RenderLines(order)) == front + own;
      var keys := set k | k in order;
      var earlier := set k | k in init;
      assert LoadKeys(RenderLines(init)) == FileLines(earlier);
      forall line | line in LoadKeys(RenderLines(order))
        ensures line in FileLines(keys)
      {
        if line in front {
          assert line in LoadKeys(RenderLines(init));
          assert line in FileLines(earlier);
          var k :| k in earlier && line in ReadLines(k + "\n");
          assert k in keys;
        } else {
          assert key in keys && line in own;
        }
      }
      forall line | line in FileLines(keys)
        ensures line in LoadKeys(RenderLines(order))
      {
        var k :| k in keys && line in ReadLines(k + "\n");
        if k != key {
          assert k in earlier;
          assert line in FileLines(earlier);
          assert line in LoadKeys(RenderLines(init));
          assert line in front;
        }
      }
    }
  }

  /** A storable key written on a line of its own reads back as itself. */
  lemma StorableReadsBack(key: string)
    requires Storable(key)
    ensures ReadLines(key + "\n") == [key]
  {
    ReadRenderedLines([key]);
    assert RenderLines([key]) == key + "\n" + [];
    AppendEmpty(key + "\n");
  }

  /** Storable keys come back as themselves. */
  lemma FileLinesOfStorable(keys: set<string>)
    requires forall k | k in keys :: Storable(k)
    ensures FileLines(keys) == keys
  {
    forall line | line in FileLines(keys)
      ensures line in keys
    {
      var k :| k in keys && line in ReadLines(k + "\n");
      StorableReadsBack(k);
    }
    forall k | k in keys
      ensures k in FileLines(keys)
    {
      StorableReadsBack(k);
      assert k in ReadLines(k + "\n");
    }
  }
}

=== FILE: s3_manager.dfy ===
/**
 * `CustomS3Manager` (s3_manager.py): it lists the tracking-log objects under
 * a prefix of the object store, downloads each one not yet processed into
 * the staging directory, decompresses it, posts the JSON to the ingestion
 * endpoint, sweeps the staging directory, and after each attempt rewrites
 * the two progress files `downloaded_files.txt` and `error_files.txt`.
 *
 * The object store, the gzip codec and the HTTP endpoint are outside the
 * model: the store is a map from listing prefix to the keys it returns, and
 * what each download, extraction and post does is an `Attempt` supplied by
 * an `Oracle`. The functions below specify each step on file-system values;
 * the `Manager` class performs the same steps on a `Disk` object, and each
 * of its methods is proved to do what its function says.
 */
module S3Manager {
  import opened Wrappers
  import opened PyText
  import opened PyPath
  import opened LocalDisk
  import opened FileUtils

  const DownloadedFilesPath: string := "downloaded_files.txt"
  const ErrorFilesPath: string := "error_files.txt"

  /**
   * basePrefix      - the configured PATH_S3_TO_TRACKINGLOG, put before every listing prefix;
   * localFilePath   - `os.path.expanduser("~/")`, the staging directory;
   * store           - what `list_objects_v2` returns for each full prefix: the keys of
   *                   "Contents", in order; a missing or empty entry has no "Contents";
   * recursionBudget - how many nested `list_files` calls run before Python raises RecursionError.
   */
  datatype Env = Env(basePrefix: string, localFilePath: string, store: map<string, seq<string>>, recursionBudget: nat)

  /**
   * Why `list_files` raises: `KeyError('Contents')` on a response without
   * "Contents", or `RecursionError`. The listed prefix kept in `NoContents`
   * is the model's own record of where the listing failed, not part of the
   * exception.
   */
  datatype ListError = NoContents(prefix: string) | RecursionLimit

  /** A key ending in '/' is taken for a folder. */
  predicate IsFolderKey(key: string) {
    key != [] && key[|key| - 1] == '/'
  }

  /** `file_key[len(prefix):-1]`, with Python's slice clamping. */
  function Subfolder(prefix: string, key: string): string
    requires IsFolderKey(key)
  {
    if |prefix| <= |key| - 1 then key[|prefix|..|key| - 1] else []
  }

  /** `self.local_file_path + file_key.split("/")[-1]`: where a key is staged. */
  function LocalPath(env: Env, key: string): string {
    env.localFilePath + Basename(key)
  }

  /** The key list `list_files` reads from `downloaded_files.txt`, empty when the file is absent. */
  function KnownKeys(fs: Fs): seq<string> {
    if DownloadedFilesPath in fs.texts then ReadLines(fs.texts[DownloadedFilesPath]) else []
  }

  /** `response["Contents"]` for `list_objects_v2(Prefix = basePrefix + prefix)`. */
  function Listing(env: Env, prefix: string): Result<seq<string>, ListError> {
    var full := env.basePrefix + prefix;
    if full in env.store && env.store[full] != [] then Ok(env.store[full]) else Err(NoContents(full))
  }

  /** `list_files(prefix)` with `depth` more nested calls allowed. */
  function Candidates(env: Env, fs: Fs, prefix: string, depth: nat): Result<seq<string>, ListError>
    decreases depth, 1
  {
    match Listing(env, prefix)
    case Err(e) => Err(e)
    case Ok(contents) => Scan(env, fs, prefix, contents, depth)
  }

  /** The loop of `list_files` over the listed `keys`, in order. */
  function Scan(env: Env, fs: Fs, prefix: string, keys: seq<string>, depth: nat): Result<seq<string>, ListError>
    decreases depth, 0, |keys|
  {
    if keys == [] then Ok([])
    else Visit(env, fs, prefix, Scan(env, fs, prefix, keys[..|keys| - 1], depth), keys[|keys| - 1], depth)
  }

  /**
   * One iteration of that loop, after the earlier keys gave `front`: a key
   * listed in `downloaded_files.txt` is skipped, a folder is listed
   * recursively and its candidates appended, a key whose staged path exists
   * is skipped, any other key is kept.
   */
  function Visit(env: Env, fs: Fs, prefix: string, front: Result<seq<string>, ListError>, key: string, depth: nat)
    : Result<seq<string>, ListError>
    decreases depth, 0, 0
  {
    if front.Err? || key in KnownKeys(fs) then front
    else if IsFolderKey(key) then
      if depth == 0 then Err(RecursionLimit)
      else
        var sub := Candidates(env, fs, prefix + Subfolder(prefix, key), depth - 1);
        if sub.Err? then sub else Ok(front.value + sub.value)
    else if fs.Exists(LocalPath(env, key)) then front
    else Ok(front.value + [key])
  }

  /** Once the scan of a prefix of the listing has raised, the scan of the whole listing raises the same. */
  lemma {:induction false} ScanFailurePersists(env: Env, fs: Fs, prefix: string, keys: seq<string>, i: nat, depth: nat)
    requires i <= |keys|
    requires Scan(env, fs, prefix, keys[..i], depth).Err?
    ensures Scan(env, fs, prefix, keys, depth) == Scan(env, fs, prefix, keys[..i], depth)
    decreases |keys| - i
  {
    if i < |keys| {
      var init := keys[..|keys| - 1];
      assert init[..i] == keys[..i];
      ScanFailurePersists(env, fs, prefix, init, i, depth);
      assert Scan(env, fs, prefix, keys, depth) == Visit(env, fs, prefix, Scan(env, fs, prefix, init, depth), keys[|keys| - 1], depth);
    } else {
      assert keys[..i] == keys;
    }
  }

  /** What an HTTP post of the JSON payload does: it raises, or the endpoint answers with a status. */
  datatype PostOutcome = PostRaises | Response(status: int)

  /** What the outside world does when one candidate is attempted. */
  datatype Attempt = Attempt(downloadRaises: bool, extraction: Extraction, post: PostOutcome)

  /**
   * attempt  - the outcome of attempting the candidate at each position of the list;
   * setOrder - the order in which the interpreter iterates a set of keys.
   */
  datatype Oracle = Oracle(attempt: nat -> Attempt, setOrder: set<string> -> seq<string>)

  /** A payload posted to the endpoint: the JSON file it came from and the status returned. */
  datatype Delivery = Delivery(path: string, status: int)

  /** The state `download_files` works on: the file system, the posts made, and its two key sets. */
  datatype Session = Session(fs: Fs, posted: seq<Delivery>, processed: set<string>, errors: set<string>)

  datatype Sent = Sent(fs: Fs, posted: seq<Delivery>, raised: bool)

  datatype Tried = Tried(session: Session, failed: bool)

  /** `s3.download_file(bucket, key, path)`; writing onto a directory raises. */
  function Download(fs: Fs, path: string, raises: bool): Effect {
    if raises || fs.IsDir(path) then Effect(fs, true)
    else Effect(fs.(files := fs.files + {path}), false)
  }

  /** The JSON path `send_file_to_endpoint` derives: the dirname joined with the stripped basename. */
  function JsonPath(filePath: string): string {
    Join(Dirname(filePath), UncompressedName(Basename(filePath)))
  }

  /**
   * `send_file_to_endpoint(file_path)`: a JSON path that is a directory
   * exists but cannot be opened; a missing one is only reported; otherwise
   * the payload is posted and then deleted whatever the status.
   */
  function Send(fs: Fs, posted: seq<Delivery>, filePath: string, post: PostOutcome): Sent {
    var json := JsonPath(filePath);
    if fs.IsDir(json) then Sent(fs, posted, true)
    else if json !in fs.files then Sent(fs, posted, false)
    else match post
      case PostRaises => Sent(fs, posted, true)
      case Response(status) => Sent(fs.(files := fs.files - {json}), posted + [Delivery(json, status)], false)
  }

  /** A name the pattern "*" matches: `glob` skips names starting with '.'. */
  predicate GlobVisible(name: string) {
    name != [] && name[0] != '.'
  }

  /** The regular files `glob(join(dirname(file_path), "*"))` returns. */
  function Swept(fs: Fs, filePath: string): set<string> {
    set p | p in fs.files && Dirname(p) == Dirname(filePath) && GlobVisible(Basename(p))
  }

  /** `remove_files(file_path)`: every visible file beside it, then the file itself if it still exists. */
  function Remove(fs: Fs, filePath: string): Effect {
    var rest := fs.files - Swept(fs, filePath);
    if filePath in rest then Effect(fs.(files := rest - {filePath}), false)
    else Effect(fs.(files := rest), fs.IsDir(filePath))
  }

  /** Rewriting a progress file in "w" mode when `keys` is non-empty: nothing is read back, every key is written. */
  function Persist(fs: Fs, path: string, keys: set<string>, order: set<string> -> seq<string>): Fs {
    if keys == {} then fs else fs.(texts := fs.texts[path := RenderLines(order(keys))])
  }

  /** The `try` block of `download_files` for `key`: download, extract, record, forward, clean up. */
  function TryAttempt(env: Env, s: Session, key: string, att: Attempt): Tried {
    var path := LocalPath(env, key);
    var d := Download(s.fs, path, att.downloadRaises);
    if d.raised then Tried(s.(fs := d.fs), true)
    else
      var x := Extract(d.fs, path, att.extraction);
      if x.raised then Tried(s.(fs := x.fs), true)
      else
        var recorded := s.(fs := x.fs, processed := s.processed + {key});
        var sent := Send(recorded.fs, recorded.posted, path, att.post);
        if sent.raised then Tried(recorded.(fs := sent.fs, posted := sent.posted), true)
        else
          var removed := Remove(sent.fs, path);
          Tried(recorded.(fs := removed.fs, posted := sent.posted), removed.raised)
  }

  /** One iteration of the loop of `download_files`. */
  function Step(env: Env, s: Session, key: string, att: Attempt, order: set<string> -> seq<string>): Session {
    if key in s.processed then s else Settle(TryAttempt(env, s, key, att), key, order)
  }

  /**
   * The `except` branch and the statements after the try/except of one
   * iteration, after the attempt `t` for `key`: each set's file is rewritten
   * only when that set is non-empty.
   */
  function Settle(t: Tried, key: string, order: set<string> -> seq<string>): Session {
    var s1 := if t.failed then t.session.(errors := t.session.errors + {key}) else t.session;
    var fs1 := Persist(s1.fs, DownloadedFilesPath, s1.processed, order);
    s1.(fs := Persist(fs1, ErrorFilesPath, s1.errors, order))
  }

  /** The loop of `download_files` over the first |keys| candidates. */
  function Run(env: Env, start: Session, keys: seq<string>, oracle: Oracle): Session
    decreases |keys|
  {
    if keys == [] then start
    else
      var n := |keys| - 1;
      Step(env, Run(env, start, keys[..n], oracle), keys[n], oracle.attempt(n), oracle.setOrder)
  }

  /** The key set read from a progress file, empty when the file is absent. */
  function KeysAt(fs: Fs, path: string): set<string> {
    if path in fs.texts then LoadKeys(fs.texts[path]) else {}
  }

  /** The state `download_files` starts its loop in. */
  function Load(fs: Fs, posted: seq<Delivery>): Session {
    Session(fs, posted, KeysAt(fs, DownloadedFilesPath), KeysAt(fs, ErrorFilesPath))
  }

  /** `download_files()`: list the candidates, then run the loop over them. */
  function Sync(env: Env, fs: Fs, posted: seq<Delivery>, oracle: Oracle): Result<Session, ListError> {
    match Candidates(env, fs, "", env.recursionBudget)
    case Err(e) => Err(e)
    case Ok(keys) => Ok(Run(env, Load(fs, posted), keys, oracle))
  }

  class Manager {
    const env: Env
    const disk: Disk
    /** The payloads the endpoint has received from this manager. */
    var posted: seq<Delivery>

    /** `CustomS3Manager(s3_client)` with the configuration already read. */
    constructor (home: string, basePrefix: string, store: map<string, seq<string>>, recursionBudget: nat, disk: Disk)
      ensures env == Env(basePrefix, ExpandUser(home), store, recursionBudget)
      ensures this.disk == disk && posted == []
    {
      env := Env(basePrefix, ExpandUser(home), store, recursionBudget);
      this.disk := disk;
      posted := [];
    }

    /** `list_files(prefix)`, allowed `depth` more nested calls. */
    method ListFiles(prefix: string, depth: nat) returns (r: Result<seq<string>, ListError>)
      ensures r == Candidates(env, disk.View(), prefix, depth)
      decreases depth, 1
    {
      var full := env.basePrefix + prefix;
      if full !in env.store || env.store[full] == [] {
        return Err(NoContents(full));
      }
      var contents := env.store[full];
      var downloaded: seq<string> := [];
      if DownloadedFilesPath in disk.texts {
        downloaded := ReadLines(disk.texts[DownloadedFilesPath]);
      }
      assert downloaded == KnownKeys(disk.View());
      var found: seq<string> := [];
      var i := 0;
      assert contents[..i] == [];
      while i < |contents|
        invariant i <= |contents|
        invariant Scan(env, disk.View(), prefix, contents[..i], depth) == Ok(found)
        invariant Remembers(downloaded)
      {
        assert contents[..i + 1][..i] == contents[..i];
        assert Scan(env, disk.View(), prefix, contents[..i + 1], depth)
            == Visit(env, disk.View(), prefix, Ok(found), contents[i], depth);
        var next;
        next, downloaded := ListKey(prefix, found, downloaded, contents[i], depth);
        if next.Err? {
          ScanFailurePersists(env, disk.View(), prefix, contents, i + 1, depth);
          return next;
        }
        found := next.value;
        i := i + 1;
      }
      assert contents[..i] == contents;
      r := Ok(found);
    }

    /**
     * The keys `list_files` holds in `downloaded_files`: every key of
     * `downloaded_files.txt`, and otherwise only file keys whose staged
     * path exists.
     */
    ghost predicate Remembers(downloaded: seq<string>)
      reads this, disk
    {
      (forall k | k in KnownKeys(disk.View()) :: k in downloaded) &&
      (forall k | k in downloaded :: k in KnownKeys(disk.View()) || (!IsFolderKey(k) && disk.View().Exists(LocalPath(env, k))))
    }

    /** One iteration of the loop of `list_files`, after the earlier keys gave `found`. */
    method ListKey(prefix: string, found: seq<string>, downloaded: seq<string>, key: string, depth: nat)
      returns (r: Result<seq<string>, ListError>, downloaded': seq<string>)
      requires Remembers(downloaded)
      ensures r == Visit(env, disk.View(), prefix, Ok(found), key, depth)
      ensures Remembers(downloaded')
      decreases depth, 0
    {
      downloaded' := downloaded;
      if key in downloaded {
        return Ok(found), downloaded';
      }
      if IsFolderKey(key) {
        if depth == 0 {
          return Err(RecursionLimit), downloaded';
        }
        var sub := ListFiles(prefix + Subfolder(prefix, key), depth - 1);
        if sub.Err? {
          return sub, downloaded';
        }
        return Ok(found + sub.value), downloaded';
      }
      var filePath := env.localFilePath + Basename(key);
      if disk.View().Exists(filePath) {
        downloaded' := downloaded + [key];
        r := Ok(found);
      } else {
        r := Ok(found + [key]);
      }
    }

    /** `self.s3.download_file(bucket, key, file_path)`; returns whether it raised. */
    method DownloadFile(filePath: string, raises: bool) returns (raised: bool)
      modifies disk
      ensures Effect(disk.View(), raised) == Download(old(disk.View()), filePath, raises)
    {
      raised := raises || disk.View().IsDir(filePath);
      if !raised {
        disk.files := disk.files + {filePath};
      }
    }

    /** `send_file_to_endpoint(file_path)`; returns whether it raised. */
    method SendFileToEndpoint(filePath: string, post: PostOutcome) returns (raised: bool)
      modifies this, disk
      ensures Sent(disk.View(), posted, raised) == Send(old(disk.View()), old(posted), filePath, post)
    {
      var jsonFilePath := Join(Dirname(filePath), UncompressedName(Basename(filePath)));
      raised := false;
      if disk.View().IsDir(jsonFilePath) {
        raised := true;
      } else if jsonFilePath in disk.files {
        match post
        case PostRaises =>
          raised := true;
        case Response(status) =>
          posted := posted + [Delivery(jsonFilePath, status)];
          disk.files := disk.files - {jsonFilePath};
      }
    }

    /** `remove_files(file_path)`; returns whether it raised. */
    method RemoveFiles(filePath: string) returns (raised: bool)
      modifies disk
      ensures Effect(disk.View(), raised) == Remove(old(disk.View()), filePath)
    {
      var directory := Dirname(filePath);
      var toRemove := set p | p in disk.files && Dirname(p) == directory && GlobVisible(Basename(p));
      ghost var matched := toRemove;
      ghost var before := disk.files;
      while toRemove != {}
        invariant toRemove <= matched
        invariant disk.files == before - (matched - toRemove)
        invariant disk.texts == old(disk.texts)
        decreases toRemove
      {
        var file :| file in toRemove;
        disk.files := disk.files - {file};
        toRemove := toRemove - {file};
      }
      assert matched == Swept(old(disk.View()), filePath);
      raised := false;
      if filePath in disk.files {
        disk.files := disk.files - {filePath};
      } else if disk.View().IsDir(filePath) {
        raised := true;
      }
    }

    /** Rewrite the progress file at `path` from `keys` when `keys` is non-empty. */
    method WriteKeys(path: string, keys: set<string>, order: set<string> -> seq<string>)
      modifies disk
      ensures disk.View() == Persist(old(disk.View()), path, keys, order)
    {
      if keys != {} {
        disk.texts := disk.texts[path := RenderLines(order(keys))];
      }
    }

    /**
     * The `try` block of `download_files` for `key`: download, extract,
     * record as processed, forward, clean up. Returns the processed set and
     * whether an exception reached the `except`.
     */
    method TryDownload(key: string, att: Attempt, processed: set<string>, ghost errors: set<string>)
      returns (processed': set<string>, failed: bool)
      modifies this, disk
      ensures TryAttempt(env, Session(old(disk.View()), old(posted), processed, errors), key, att)
           == Tried(Session(disk.View(), posted, processed', errors), failed)
    {
      ghost var s := Session(disk.View(), posted, processed, errors);
      var filePath := env.localFilePath + Basename(key);
      assert filePath == LocalPath(env, key);
      processed' := processed;
      failed := DownloadFile(filePath, att.downloadRaises);
      ghost var d := Download(s.fs, filePath, att.downloadRaises);
      assert disk.View() == d.fs && failed == d.raised;
      if !failed {
        failed := Uncompress.ExtractFiles(disk, filePath, att.extraction);
        ghost var x := Extract(d.fs, filePath, att.extraction);
        assert disk.View() == x.fs && failed == x.raised;
        if !failed {
          processed' := processed + {key};
          failed := SendFileToEndpoint(filePath, att.post);
          ghost var sent := Send(x.fs, s.posted, filePath, att.post);
          assert disk.View() == sent.fs && posted == sent.posted && failed == sent.raised;
          if !failed {
            failed := RemoveFiles(filePath);
            ghost var removed := Remove(sent.fs, filePath);
            assert disk.View() == removed.fs && failed == removed.raised;
          }
        }
      }
    }

    /**
     * One pass of the loop body of `download_files` for `key`: skip it when
     * already processed, otherwise try it, record a failure, and rewrite both
     * progress files.
     */
    method HandleKey(key: string, att: Attempt, processed: set<string>, errors: set<string>,
                 order: set<string> -> seq<string>)
      returns (processed': set<string>, errors': set<string>)
      modifies this, disk
      ensures Session(disk.View(), posted, processed', errors')
           == Step(env, Session(old(disk.View()), old(posted), processed, errors), key, att, order)
    {
      processed', errors' := processed, errors;
      if key !in processed {
        var failed;
        processed', failed := TryDownload(key, att, processed, errors);
        errors' := RecordOutcome(key, failed, processed', errors, order);
      }
    }

    /**
     * The `except` branch and the statements after the try/except of one
     * iteration: add `key` to the error set when the attempt failed, then
     * rewrite each progress file whose set is non-empty.
     */
    method RecordOutcome(key: string, failed: bool, processed: set<string>, errors: set<string>,
                         order: set<string> -> seq<string>)
      returns (errors': set<string>)
      modifies disk
      ensures Session(disk.View(), posted, processed, errors')
           == Settle(Tried(Session(old(disk.View()), posted, processed, errors), failed), key, order)
    {
      errors' := errors;
      if failed {
        errors' := errors + {key};
      }
      WriteKeys(DownloadedFilesPath, processed, order);
      WriteKeys(ErrorFilesPath, errors', order);
    }

    /** Reading both progress files at the start of `download_files`; an absent file gives the empty set. */
    method ReadProgress() returns (processed: set<string>, errors: set<string>)
      ensures Session(disk.View(), posted, processed, errors) == Load(disk.View(), posted)
    {
      processed, errors := {}, {};
      if DownloadedFilesPath in disk.texts {
        processed := LoadKeys(disk.texts[DownloadedFilesPath]);
      }
      if ErrorFilesPath in disk.texts {
        errors := LoadKeys(disk.texts[ErrorFilesPath]);
      }
    }

    /** The loop of `download_files` over the candidate keys, the attempts numbered in order. */
    method ProcessAll(keys: seq<string>, oracle: Oracle, processed: set<string>, errors: set<string>)
      returns (done: set<string>, failed: set<string>)
      modifies this, disk
      ensures Session(disk.View(), posted, done, failed)
           == Run(env, Session(old(disk.View()), old(posted), processed, errors), keys, oracle)
    {
      ghost var start := Session(disk.View(), posted, processed, errors);
      done, failed := processed, errors;
      var i := 0;
      assert keys[..i] == [];
      while i < |keys|
        invariant i <= |keys|
        invariant Session(disk.View(), posted, done, failed) == Run(env, start, keys[..i], oracle)
      {
        assert keys[..i + 1][..i] == keys[..i];
        done, failed := HandleKey(keys[i], oracle.attempt(i), done, failed, oracle.setOrder);
        i := i + 1;
      }
      assert keys[..i] == keys;
    }

    /**
     * `download_files()`: returns the listing error that aborted it, if any.
     * On success the file system and the posts are those of `Sync`.
     */
    method DownloadFiles(oracle: Oracle) returns (failure: Option<ListError>)
      modifies this, disk
      ensures match Sync(env, old(disk.View()), old(posted), oracle)
        case Err(e) => failure == Some(e) && disk.View() == old(disk.View()) && posted == old(posted)
        case Ok(s) => failure == None && disk.View() == s.fs && posted == s.posted
    {
      var data := ListFiles("", env.recursionBudget);
      if data.Err? {
        return Some(data.error);
      }
      var processed, errors := ReadProgress();
      processed, errors := ProcessAll(data.value, oracle, processed, errors);
      failure := None;
    }
  }
}

=== FILE: s3_manager_proofs.dfy ===
/**
 * What `list_files` and `download_files` guarantee, proved about the
 * functions that specify them in module S3Manager.
 */
module S3ManagerProofs {
  import opened Wrappers
  import opened PyText
  import opened PyPath
  import opened LocalDisk
  import opened FileUtils
  import opened S3Manager

  // ---------------------------------------------------------------------
  // Candidate listing
  // ---------------------------------------------------------------------

  /** Some listing of the store returned `key`. */
  ghost predicate InCatalog(env: Env, key: string) {
    exists p | p in env.store :: key in env.store[p]
  }

  /**
   * A key `list_files` may return when the file system is `fs`: it is not in
   * `downloaded_files.txt`, it is not a folder, its staged path does not
   * exist, and the store listed it.
   */
  ghost predicate Eligible(env: Env, fs: Fs, key: string) {
    key !in KnownKeys(fs) && !IsFolderKey(key) && !fs.Exists(LocalPath(env, key)) && InCatalog(env, key)
  }

  /** Every key `list_files` returns is eligible. */
  lemma {:induction false} CandidatesEligible(env: Env, fs: Fs, prefix: string, depth: nat)
    ensures Candidates(env, fs, prefix, depth).Ok? ==>
      forall k | k in Candidates(env, fs, prefix, depth).value :: Eligible(env, fs, k)
    decreases depth, 1
  {
    var full := env.basePrefix + prefix;
    if full in env.store && env.store[full] != [] {
      var contents := env.store[full];
      forall k | k in contents
        ensures InCatalog(env, k)
      {
        assert full in env.store && k in env.store[full];
      }
      ScanEligible(env, fs, prefix, contents, depth);
    }
  }

  /** Every key the loop of `list_files` keeps from listed keys is eligible. */
  lemma {:induction false} ScanEligible(env: Env, fs: Fs, prefix: string, keys: seq<string>, depth: nat)
    requires forall k | k in keys :: InCatalog(env, k)
    ensures Scan(env, fs, prefix, keys, depth).Ok? ==>
      forall k | k in Scan(env, fs, prefix, keys, depth).value :: Eligible(env, fs, k)
    decreases depth, 0, |keys|
  {
    if keys != [] {
      var init := keys[..|keys| - 1];
      var key := keys[|keys| - 1];
      assert forall k | k in init :: k in keys;
      ScanEligible(env, fs, prefix, init, depth);
      if IsFolderKey(key) && depth > 0 {
        CandidatesEligible(env, fs, prefix + Subfolder(prefix, key), depth - 1);
      }
    }
  }

  /** `list_files` with an empty or missing "Contents" raises `KeyError`: it never returns an empty list that way. */
  lemma EmptyListingFails(env: Env, fs: Fs, prefix: string, depth: nat)
    requires env.basePrefix + prefix !in env.store || env.store[env.basePrefix + prefix] == []
    ensures Candidates(env, fs, prefix, depth) == Err(NoContents(env.basePrefix + prefix))
  {
  }

  /** Appending results, the first error (left to right) winning. */
  function Concat(a: Result<seq<string>, ListError>, b: Result<seq<string>, ListError>): Result<seq<string>, ListError> {
    if a.Err? then a else if b.Err? then b else Ok(a.value + b.value)
  }

  /**
   * What one listed key contributes to the result of `list_files`: nothing
   * when it is known or staged, itself when it is a file to fetch, and the
   * whole listing of its subfolder when it is a folder.
   */
  function Contribution(env: Env, fs: Fs, prefix: string, key: string, depth: nat): Result<seq<string>, ListError> {
    if key in KnownKeys(fs) then Ok([])
    else if IsFolderKey(key) then
      if depth == 0 then Err(RecursionLimit) else Candidates(env, fs, prefix + Subfolder(prefix, key), depth - 1)
    else if fs.Exists(LocalPath(env, key)) then Ok([])
    else Ok([key])
  }

  /** The contributions of the listed keys, concatenated in catalog order. */
  function Expand(env: Env, fs: Fs, prefix: string, keys: seq<string>, depth: nat): Result<seq<string>, ListError>
    decreases |keys|
  {
    if keys == [] then Ok([])
    else Concat(Contribution(env, fs, prefix, keys[0], depth), Expand(env, fs, prefix, keys[1..], depth))
  }

  lemma ConcatAssociative(a: Result<seq<string>, ListError>, b: Result<seq<string>, ListError>, c: Result<seq<string>, ListError>)
    ensures Concat(Concat(a, b), c) == Concat(a, Concat(b, c))
  {
    if a.Ok? && b.Ok? && c.Ok? {
      assert (a.value + b.value) + c.value == a.value + (b.value + c.value);
    }
  }

  lemma {:induction false} ExpandSnoc(env: Env, fs: Fs, prefix: string, keys: seq<string>, key: string, depth: nat)
    ensures Expand(env, fs, prefix, keys + [key], depth)
         == Concat(Expand(env, fs, prefix, keys, depth), Contribution(env, fs, prefix, key, depth))
    decreases |keys|
  {
    var c := Contribution(env, fs, prefix, key, depth);
    if keys == [] {
      assert [key][1..] == [];
      assert Expand(env, fs, prefix, [key], depth) == Concat(c, Ok([]));
      if c.Ok? {
        assert c.value + [] == c.value && [] + c.value == c.value;
      }
    } else {
      assert (keys + [key])[1..] == keys[1..] + [key];
      ExpandSnoc(env, fs, prefix, keys[1..], key, depth);
      ConcatAssociative(Contribution(env, fs, prefix, keys[0], depth), Expand(env, fs, prefix, keys[1..], depth), c);
    }
  }

  /**
   * The loop of `list_files` keeps catalog order: its result is the
   * concatenation of what each listed key contributes, a folder's own
   * listing spliced in at the folder's position, duplicates kept, and the
   * first failure in catalog order raised.
   */
  lemma {:induction false} ScanIsConcatenation(env: Env, fs: Fs, prefix: string, keys: seq<string>, depth: nat)
    ensures Scan(env, fs, prefix, keys, depth) == Expand(env, fs, prefix, keys, depth)
    decreases |keys|
  {
    if keys != [] {
      var init := keys[..|keys| - 1];
      var key := keys[|keys| - 1];
      ScanIsConcatenation(env, fs, prefix, init, depth);
      VisitIsConcat(env, fs, prefix, Scan(env, fs, prefix, init, depth), key, depth);
      ExpandSnoc(env, fs, prefix, init, key, depth);
      InitLast(keys);
    }
  }

  /** One iteration of the loop appends the key's contribution to what came before. */
  lemma VisitIsConcat(env: Env, fs: Fs, prefix: string, front: Result<seq<string>, ListError>, key: string, depth: nat)
    ensures Visit(env, fs, prefix, front, key, depth) == Concat(front, Contribution(env, fs, prefix, key, depth))
  {
    if front.Ok? {
      AppendEmpty(front.value);
    }
  }

  lemma ExpandSingle(env: Env, fs: Fs, prefix: string, key: string, depth: nat)
    ensures Expand(env, fs, prefix, [key], depth) == Contribution(env, fs, prefix, key, depth)
  {
    var c := Contribution(env, fs, prefix, key, depth);
    assert [key][1..] == [];
    assert Expand(env, fs, prefix, [key], depth) == Concat(c, Ok([]));
    if c.Ok? {
      assert c.value + [] == c.value;
    }
  }

  /** A file key listed twice, not yet fetched, is returned twice. */
  lemma RepeatedKeyReturnedTwice(env: Env, fs: Fs, prefix: string, key: string, depth: nat)
    requires Listing(env, prefix) == Ok([key, key])
    requires key !in KnownKeys(fs) && !IsFolderKey(key) && !fs.Exists(LocalPath(env, key))
    ensures Candidates(env, fs, prefix, depth) == Ok([key] + [key])
  {
    ScanIsConcatenation(env, fs, prefix, [key, key], depth);
    assert Contribution(env, fs, prefix, key, depth) == Ok([key]);
    ExpandSingle(env, fs, prefix, key, depth);
    assert [key, key][1..] == [key];
    assert Expand(env, fs, prefix, [key, key], depth) == Concat(Ok([key]), Ok([key]));
    assert Candidates(env, fs, prefix, depth) == Scan(env, fs, prefix, [key, key], depth);
  }

  /** A file key that was neither recorded nor staged: `list_files` keeps it. */
  ghost predicate Fresh(env: Env, fs: Fs, key: string) {
    key !in KnownKeys(fs) && !IsFolderKey(key) && !fs.Exists(LocalPath(env, key))
  }

  /** A listing of fresh file keys is returned whole, in order. */
  lemma {:induction false} FreshKeysAllReturned(env: Env, fs: Fs, prefix: string, keys: seq<string>, depth: nat)
    requires forall i | 0 <= i < |keys| :: Fresh(env, fs, keys[i])
    ensures Expand(env, fs, prefix, keys, depth) == Ok(keys)
    decreases |keys|
  {
    if keys != [] {
      FreshKeysAllReturned(env, fs, prefix, keys[1..], depth);
      assert Fresh(env, fs, keys[0]);
      assert Contribution(env, fs, prefix, keys[0], depth) == Ok([keys[0]]);
      HeadTail(keys);
    }
  }

  /**
   * Three archives uploaded under the tracking-log prefix, none fetched
   * before, are the three candidates of a listing from the empty prefix.
   */
  lemma ThreeUploadedKeys(env: Env, fs: Fs, depth: nat)
    requires Listing(env, "") == Ok(["trackinglog/file1.gz", "trackinglog/file2.gz", "trackinglog/file3.gz"])
    requires DownloadedFilesPath !in fs.texts
    requires forall i | 0 <= i < 3 :: !fs.Exists(LocalPath(env, Listing(env, "").value[i]))
    ensures Candidates(env, fs, "", depth) == Listing(env, "")
    ensures |Candidates(env, fs, "", depth).value| == 3
  {
    var keys: seq<string> := Listing(env, "").value;
    assert KnownKeys(fs) == [];
    forall i | 0 <= i < |keys|
      ensures Fresh(env, fs, keys[i])
    {
      assert keys[i][|keys[i]| - 1] == 'z';
    }
    FreshKeysAllReturned(env, fs, "", keys, depth);
    ScanIsConcatenation(env, fs, "", keys, depth);
  }

  /**
   * A listing that returns the folder marker of its own prefix raises:
   * the marker's subfolder is the empty string, so `list_files` lists the
   * same prefix again, and either an earlier key's nested listing or the
   * recursion limit raises.
   */
  lemma {:induction false} SelfListedFolderRaises(env: Env, fs: Fs, prefix: string, depth: nat)
    requires Listing(env, prefix).Ok? && prefix + "/" in Listing(env, prefix).value
    requires prefix + "/" !in KnownKeys(fs)
    ensures Candidates(env, fs, prefix, depth).Err?
    decreases depth
  {
    var contents := Listing(env, prefix).value;
    var marker := prefix + "/";
    var j :| 0 <= j < |contents| && contents[j] == marker;
    OwnMarker(prefix);
    if depth > 0 {
      SelfListedFolderRaises(env, fs, prefix, depth - 1);
    }
    MarkerVisitRaises(env, fs, prefix, Scan(env, fs, prefix, contents[..j], depth), depth);
    RaisingKeyRaises(env, fs, prefix, contents, j, depth);
  }

  /**
   * When no key before the marker is a folder, the self-listed prefix
   * raises exactly the interpreter's `RecursionError`.
   */
  lemma {:induction false} SelfListedFolderHitsRecursionLimit(env: Env, fs: Fs, prefix: string, j: nat, depth: nat)
    requires Listing(env, prefix).Ok? && j < |Listing(env, prefix).value|
    requires Listing(env, prefix).value[j] == prefix + "/"
    requires forall i | 0 <= i < j :: !IsFolderKey(Listing(env, prefix).value[i])
    requires prefix + "/" !in KnownKeys(fs)
    ensures Candidates(env, fs, prefix, depth) == Err(RecursionLimit)
    decreases depth
  {
    var contents := Listing(env, prefix).value;
    OwnMarker(prefix);
    if depth > 0 {
      SelfListedFolderHitsRecursionLimit(env, fs, prefix, j, depth - 1);
    }
    FileKeysScanOk(env, fs, prefix, contents[..j], depth);
    assert contents[..j + 1][..j] == contents[..j];
    assert Scan(env, fs, prefix, contents[..j + 1], depth) == Err(RecursionLimit);
    ScanFailurePersists(env, fs, prefix, contents, j + 1, depth);
  }

  /** A listing without folder keys scans without error. */
  lemma {:induction false} FileKeysScanOk(env: Env, fs: Fs, prefix: string, keys: seq<string>, depth: nat)
    requires forall i | 0 <= i < |keys| :: !IsFolderKey(keys[i])
    ensures Scan(env, fs, prefix, keys, depth).Ok?
    decreases |keys|
  {
    if keys != [] {
      FileKeysScanOk(env, fs, prefix, keys[..|keys| - 1], depth);
    }
  }

  /** Visiting the marker of a prefix whose nested listing raises, raises. */
  lemma MarkerVisitRaises(env: Env, fs: Fs, prefix: string, front: Result<seq<string>, ListError>, depth: nat)
    requires prefix + "/" !in KnownKeys(fs)
    requires depth > 0 ==> Candidates(env, fs, prefix, depth - 1).Err?
    ensures Visit(env, fs, prefix, front, prefix + "/", depth).Err?
  {
    OwnMarker(prefix);
  }

  /**
   * The prefix of the nested listing for a folder key. The slice drops only
   * `len(prefix)` characters, so it names the folder when the configured
   * base prefix is empty, but a folder listed from the empty prefix under a
   * base prefix is listed again under that base prefix twice.
   */
  lemma NestedListingPrefix(base: string, prefix: string, sub: string)
    ensures prefix + Subfolder(prefix, prefix + sub + "/") == prefix + sub
    ensures base + ([] + Subfolder([], base + sub + "/")) == base + base + sub
  {
    var key := prefix + sub + "/";
    assert key[|prefix|..|key| - 1] == sub;
    var top := base + sub + "/";
    assert top[0..|top| - 1] == base + sub;
  }

  /**
   * When the folder key is longer than the prefix, the key is its first
   * `len(prefix)` characters, the subfolder, then '/'; otherwise the slice
   * is empty.
   */
  lemma SubfolderSplitsKey(prefix: string, key: string)
    requires IsFolderKey(key)
    ensures |prefix| < |key| ==> key[..|prefix|] + Subfolder(prefix, key) + "/" == key
    ensures |prefix| >= |key| ==> Subfolder(prefix, key) == []
  {
    if |prefix| < |key| {
      assert key[..|prefix|] + key[|prefix|..|key| - 1] == key[..|key| - 1];
    }
  }

  /** The folder marker of a prefix names that prefix again. */
  lemma OwnMarker(prefix: string)
    ensures IsFolderKey(prefix + "/")
    ensures prefix + Subfolder(prefix, prefix + "/") == prefix
  {
    assert (prefix + "/")[|prefix|..|prefix|] == [];
  }

  /** A key whose visit raises makes the scan of the whole listing raise. */
  lemma RaisingKeyRaises(env: Env, fs: Fs, prefix: string, keys: seq<string>, j: nat, depth: nat)
    requires j < |keys|
    requires Visit(env, fs, prefix, Scan(env, fs, prefix, keys[..j], depth), keys[j], depth).Err?
    ensures Scan(env, fs, prefix, keys, depth).Err?
  {
    assert keys[..j + 1][..j] == keys[..j];
    ScanFailurePersists(env, fs, prefix, keys, j + 1, depth);
  }

  // ---------------------------------------------------------------------
  // One attempt: download, extract, record, forward, clean up
  // ---------------------------------------------------------------------

  /** The JSON file the attempt for `key` writes and then forwards. */
  function JsonFor(env: Env, key: string): string {
    UncompressedName(LocalPath(env, key))
  }

  /**
   * The attempt for `key` gets as far as `downloaded_files.add(file_key)`:
   * the download does not raise, and extraction does not raise either
   * (only a truncated or corrupt stream propagates out of `extract_files`).
   */
  predicate Recorded(env: Env, fs: Fs, key: string, att: Attempt) {
    var path := LocalPath(env, key);
    !att.downloadRaises && !fs.IsDir(path) && !(att.extraction == Truncated && !fs.IsDir(JsonFor(env, key)))
  }

  /** Forwarding touches no progress file and no directory, and only appends to the posts. */
  lemma SendShape(fs: Fs, posted: seq<Delivery>, filePath: string, post: PostOutcome)
    ensures var r := Send(fs, posted, filePath, post);
      r.fs.texts == fs.texts && r.fs.dirs == fs.dirs && posted <= r.posted
  {
  }

  /** Cleaning up touches no progress file and no directory. */
  lemma RemoveShape(fs: Fs, filePath: string)
    ensures var r := Remove(fs, filePath);
      r.fs.texts == fs.texts && r.fs.dirs == fs.dirs
  {
  }

  /**
   * An attempt touches neither the progress files nor the error set; it
   * adds `key` to the processed set exactly when it gets past extraction,
   * fails whenever it does not, and only appends to the posts.
   */
  lemma AttemptShape(env: Env, s: Session, key: string, att: Attempt)
    ensures var t := TryAttempt(env, s, key, att);
      && t.session.fs.texts == s.fs.texts && t.session.fs.dirs == s.fs.dirs
      && t.session.errors == s.errors
      && t.session.processed == (if Recorded(env, s.fs, key, att) then s.processed + {key} else s.processed)
      && (!Recorded(env, s.fs, key, att) ==> t.failed)
      && s.posted <= t.session.posted
  {
    var path := LocalPath(env, key);
    var d := Download(s.fs, path, att.downloadRaises);
    if !d.raised {
      var x := Extract(d.fs, path, att.extraction);
      assert x.raised <==> att.extraction == Truncated && !s.fs.IsDir(JsonFor(env, key));
      if !x.raised {
        var sent := Send(x.fs, s.posted, path, att.post);
        SendShape(x.fs, s.posted, path, att.post);
        if !sent.raised {
          RemoveShape(sent.fs, path);
        }
      }
    }
  }

  /**
   * A staging directory as `os.path.expanduser("~/")` returns it: ending in
   * exactly one '/'.
   */
  predicate StagingDir(dir: string) {
    |dir| >= 1 && dir[|dir| - 1] == '/' && (|dir| >= 2 ==> dir[|dir| - 2] != '/')
  }

  /**
   * For a staged archive, the JSON path `send_file_to_endpoint` derives
   * (dirname joined with the stripped basename) is the file
   * `extract_files` wrote (the whole path stripped).
   */
  lemma JsonPathOfStaged(env: Env, key: string)
    requires StagingDir(env.localFilePath)
    ensures JsonPath(LocalPath(env, key)) == JsonFor(env, key)
  {
    var dir := env.localFilePath;
    var name := Basename(key);
    var json := UncompressedName(name);
    assert '/' !in json by {
      forall i | 0 <= i < |json|
        ensures json[i] != '/'
      {
        assert json[i] == name[i];
      }
    }
    BasenameAfterSlash(dir, name);
    HeadAfterSlash(dir, name);
    SiblingPath(dir + name, dir, json);
    UncompressedNameStopsAtSlash(dir, name);
  }

  /** A name the sweep of `remove_files(filePath)` deletes: a visible entry of the same directory. */
  predicate SweptName(filePath: string, p: string) {
    Dirname(p) == Dirname(filePath) && GlobVisible(Basename(p))
  }

  /**
   * `remove_files(filePath)` leaves exactly the files that are neither
   * `filePath` nor visible in its directory, and raises only when
   * `filePath` names a directory.
   */
  lemma RemoveSweeps(fs: Fs, filePath: string)
    ensures var r := Remove(fs, filePath);
      && (forall p :: p in r.fs.files <==> p in fs.files && p != filePath && !SweptName(filePath, p))
      && (r.raised ==> fs.IsDir(filePath))
      && (filePath !in fs.files && fs.IsDir(filePath) ==> r.raised)
  {
  }

  /** A download that raises, or a staged path that is a directory, changes nothing but fails the attempt. */
  lemma FailedDownloadChangesNothing(env: Env, s: Session, key: string, att: Attempt)
    requires att.downloadRaises || s.fs.IsDir(LocalPath(env, key))
    ensures TryAttempt(env, s, key, att) == Tried(s, true)
  {
  }

  /**
   * A truncated or corrupt stream escapes `extract_files`: the key is not
   * recorded as processed, and both the archive and the partial JSON file
   * stay in the staging directory.
   */
  lemma TruncatedArchiveIsError(env: Env, s: Session, key: string, att: Attempt)
    requires !att.downloadRaises && !s.fs.IsDir(LocalPath(env, key))
    requires att.extraction == Truncated && !s.fs.IsDir(JsonFor(env, key))
    ensures TryAttempt(env, s, key, att)
         == Tried(s.(fs := s.fs.(files := s.fs.files + {LocalPath(env, key), JsonFor(env, key)})), true)
  {
    var path := LocalPath(env, key);
    var d := Download(s.fs, path, att.downloadRaises);
    assert d.fs.files == s.fs.files + {path};
    var x := Extract(d.fs, path, att.extraction);
    assert x.fs.files == s.fs.files + {path} + {JsonFor(env, key)};
  }

  /**
   * The success path: the archive downloads, extraction writes the JSON
   * file (a stream that is not gzip at all still leaves one, since only
   * `OSError` is swallowed after the output is created), and the endpoint
   * answers with any status. The key is processed, the JSON file is posted
   * once and deleted, the staging directory is swept, and no other file
   * changes.
   */
  lemma DeliveredAttempt(env: Env, s: Session, key: string, att: Attempt, status: int)
    requires StagingDir(env.localFilePath)
    requires !att.downloadRaises && !s.fs.IsDir(LocalPath(env, key))
    requires (att.extraction == Inflated || att.extraction == BadGzip) && !s.fs.IsDir(JsonFor(env, key))
    requires att.post == Response(status)
    ensures var t := TryAttempt(env, s, key, att);
      && !t.failed
      && t.session.processed == s.processed + {key}
      && t.session.posted == s.posted + [Delivery(JsonFor(env, key), status)]
      && (forall p :: p in t.session.fs.files <==>
            p in s.fs.files && p != LocalPath(env, key) && p != JsonFor(env, key) && !SweptName(LocalPath(env, key), p))
      && t.session.fs.dirs == s.fs.dirs
  {
    var path := LocalPath(env, key);
    var json := JsonFor(env, key);
    var d := Download(s.fs, path, att.downloadRaises);
    var x := Extract(d.fs, path, att.extraction);
    assert x.fs.files == s.fs.files + {path, json} && !x.raised;
    JsonPathOfStaged(env, key);
    var sent := Send(x.fs, s.posted, path, att.post);
    assert sent == Sent(x.fs.(files := x.fs.files - {json}), s.posted + [Delivery(json, status)], false);
    RemoveSweeps(sent.fs, path);
  }

  /**
   * When the output file cannot be created, the `OSError` is swallowed: the
   * key is processed, the forward step finds no JSON file and posts
   * nothing, and the sweep still runs.
   */
  lemma UncreatedJsonIsNotPosted(env: Env, s: Session, key: string, att: Attempt)
    requires StagingDir(env.localFilePath)
    requires !att.downloadRaises && !s.fs.IsDir(LocalPath(env, key))
    requires att.extraction == CannotCreate && !s.fs.IsDir(JsonFor(env, key))
    requires JsonFor(env, key) !in s.fs.files && JsonFor(env, key) != LocalPath(env, key)
    ensures var t := TryAttempt(env, s, key, att);
      && !t.failed
      && t.session.processed == s.processed + {key}
      && t.session.posted == s.posted
  {
    var path := LocalPath(env, key);
    var d := Download(s.fs, path, att.downloadRaises);
    var x := Extract(d.fs, path, att.extraction);
    assert x.fs == d.fs && !x.raised;
    JsonPathOfStaged(env, key);
    var sent := Send(x.fs, s.posted, path, att.post);
    assert sent == Sent(x.fs, s.posted, false);
    RemoveSweeps(sent.fs, path);
  }

  /**
   * A post that raises comes after `downloaded_files.add`: the key ends the
   * iteration in both sets, and the archive and the JSON file are left
   * behind, since cleanup runs only on the success path.
   */
  lemma PostFailureKeepsBoth(env: Env, s: Session, key: string, att: Attempt, order: set<string> -> seq<string>)
    requires StagingDir(env.localFilePath)
    requires key !in s.processed
    requires !att.downloadRaises && !s.fs.IsDir(LocalPath(env, key))
    requires (att.extraction == Inflated || att.extraction == BadGzip) && !s.fs.IsDir(JsonFor(env, key))
    requires att.post == PostRaises
    ensures var r := Step(env, s, key, att, order);
      && key in r.processed && key in r.errors
      && r.posted == s.posted
      && r.fs.files == s.fs.files + {LocalPath(env, key), JsonFor(env, key)}
  {
    var path := LocalPath(env, key);
    var json := JsonFor(env, key);
    var d := Download(s.fs, path, att.downloadRaises);
    var x := Extract(d.fs, path, att.extraction);
    assert x.fs.files == s.fs.files + {path, json} && !x.raised;
    JsonPathOfStaged(env, key);
    var t := TryAttempt(env, s, key, att);
    assert t == Tried(s.(fs := x.fs, processed := s.processed + {key}), true);
  }

  // ---------------------------------------------------------------------
  // The loop of download_files
  // ---------------------------------------------------------------------

  /**
   * One iteration: a processed key is skipped and nothing changes;
   * otherwise the key sets only grow, by `key` alone, the key ends in the
   * processed set, the error set or both, and posts are only appended.
   */
  lemma StepSets(env: Env, s: Session, key: string, att: Attempt, order: set<string> -> seq<string>)
    ensures var r := Step(env, s, key, att, order);
      && (key in s.processed ==> r == s)
      && s.processed <= r.processed <= s.processed + {key}
      && s.errors <= r.errors <= s.errors + {key}
      && (key in r.processed || key in r.errors)
      && s.posted <= r.posted
  {
    AttemptShape(env, s, key, att);
  }

  /**
   * The loop never stops early: every candidate ends the run in the
   * processed set or the error set, the sets only grow from where they
   * started and only by candidates, and posts are only appended.
   */
  lemma {:induction false} RunGrows(env: Env, start: Session, keys: seq<string>, oracle: Oracle)
    ensures var r := Run(env, start, keys, oracle);
      && start.processed <= r.processed && start.errors <= r.errors && start.posted <= r.posted
      && (forall i | 0 <= i < |keys| :: keys[i] in r.processed || keys[i] in r.errors)
      && (forall k | k in r.processed :: k in start.processed || k in keys)
      && (forall k | k in r.errors :: k in start.errors || k in keys)
    decreases |keys|
  {
    if keys != [] {
      var n := |keys| - 1;
      var init := keys[..n];
      RunGrows(env, start, init, oracle);
      var prev := Run(env, start, init, oracle);
      StepSets(env, prev, keys[n], oracle.attempt(n), oracle.setOrder);
      assert forall i | 0 <= i < n :: keys[i] == init[i];
      assert forall k | k in init :: k in keys;
    }
  }

  /** The run over a prefix of the candidates is behind the run over all of them. */
  lemma {:induction false} RunPrefixGrows(env: Env, start: Session, keys: seq<string>, oracle: Oracle, i: nat)
    requires i <= |keys|
    ensures var a := Run(env, start, keys[..i], oracle);
      var b := Run(env, start, keys, oracle);
      a.processed <= b.processed && a.errors <= b.errors && a.posted <= b.posted
    decreases |keys|
  {
    if i == |keys| {
      assert keys[..i] == keys;
    } else {
      var n := |keys| - 1;
      var init := keys[..n];
      assert init[..i] == keys[..i];
      RunPrefixGrows(env, start, init, oracle, i);
      StepSets(env, Run(env, start, init, oracle), keys[n], oracle.attempt(n), oracle.setOrder);
    }
  }

  /**
   * A key is added to the processed set before forwarding and cleanup, so
   * once an earlier occurrence got that far, a later duplicate in the same
   * run is skipped and changes nothing.
   */
  lemma DuplicateSkipped(env: Env, start: Session, keys: seq<string>, oracle: Oracle, i: nat, j: nat)
    requires i < j < |keys| && keys[i] == keys[j]
    requires keys[i] in Run(env, start, keys[..i + 1], oracle).processed
    ensures Run(env, start, keys[..j + 1], oracle) == Run(env, start, keys[..j], oracle)
  {
    var init := keys[..j];
    assert init[..i + 1] == keys[..i + 1];
    RunPrefixGrows(env, start, init, oracle, i + 1);
    RunSnoc(env, start, keys, oracle, j);
    StepSets(env, Run(env, start, init, oracle), keys[j], oracle.attempt(j), oracle.setOrder);
  }

  /** The run over one more candidate is one more iteration. */
  lemma RunSnoc(env: Env, start: Session, keys: seq<string>, oracle: Oracle, j: nat)
    requires j < |keys|
    ensures Run(env, start, keys[..j + 1], oracle)
         == Step(env, Run(env, start, keys[..j], oracle), keys[j], oracle.attempt(j), oracle.setOrder)
  {
    assert keys[..j + 1][..j] == keys[..j];
  }

  /**
   * The error set is never consulted for skipping: whatever it holds, the
   * iteration attempts the key, posts and records it the same way, so a key
   * in the error set only is attempted again whenever it is listed again.
   * Whether it is listed again depends on the staging directory: see
   * `TruncatedKeyNotRelisted`.
   */
  lemma ErrorSetNotConsulted(env: Env, s: Session, key: string, att: Attempt, order: set<string> -> seq<string>,
                             errors: set<string>)
    ensures var a := Step(env, s, key, att, order);
      var b := Step(env, s.(errors := errors), key, att, order);
      a.processed == b.processed && a.posted == b.posted && a.fs.files == b.fs.files
  {
    var t := TryAttempt(env, s, key, att);
    assert TryAttempt(env, s.(errors := errors), key, att) == Tried(t.session.(errors := errors), t.failed);
  }

  // ---------------------------------------------------------------------
  // The progress files
  // ---------------------------------------------------------------------

  /** Each progress file loads back as exactly its in-memory set; an absent file stands for the empty set. */
  ghost predicate InSync(s: Session) {
    KeysAt(s.fs, DownloadedFilesPath) == s.processed && KeysAt(s.fs, ErrorFilesPath) == s.errors
  }

  /** Iterating a set visits each of its members exactly once. */
  ghost predicate Enumerating(order: set<string> -> seq<string>) {
    forall keys: set<string> :: Enumerates(order(keys), keys)
  }

  /** Keys a progress file gives back unchanged. */
  ghost predicate AllStorable(keys: set<string>) {
    forall k | k in keys :: Storable(k)
  }

  /** Keys read from a progress file are stripped and hold no line break, so writing them back reproduces them. */
  lemma LoadedKeysStorable(text: string)
    ensures AllStorable(LoadKeys(text))
  {
    var lines := ReadLines(text);
    forall k | k in LoadKeys(text)
      ensures Storable(k)
    {
      var i :| 0 <= i < |lines| && lines[i] == k;
    }
  }

  /**
   * Each progress file loads back as what writing its set gives back: the
   * lines of its keys, stripped (`FileLines`). For storable keys that is the set
   * itself; a key with surrounding whitespace comes back stripped, and one
   * with a line break comes back in pieces.
   */
  ghost predicate Mirrors(s: Session) {
    KeysAt(s.fs, DownloadedFilesPath) == FileLines(s.processed) && KeysAt(s.fs, ErrorFilesPath) == FileLines(s.errors)
  }

  /** The state `download_files` loads is in sync with the files it was loaded from, and its keys are storable. */
  lemma LoadInSync(fs: Fs, posted: seq<Delivery>)
    ensures InSync(Load(fs, posted)) && Mirrors(Load(fs, posted))
    ensures AllStorable(Load(fs, posted).processed) && AllStorable(Load(fs, posted).errors)
  {
    var s := Load(fs, posted);
    if DownloadedFilesPath in fs.texts {
      LoadedKeysStorable(fs.texts[DownloadedFilesPath]);
    }
    if ErrorFilesPath in fs.texts {
      LoadedKeysStorable(fs.texts[ErrorFilesPath]);
    }
    FileLinesOfStorable(s.processed);
    FileLinesOfStorable(s.errors);
  }

  /**
   * Rewriting a progress file from a non-empty set makes it load back as the lines
   * of that set, which is the set itself when its keys are storable.
   */
  lemma PersistLoads(fs: Fs, path: string, keys: set<string>, order: set<string> -> seq<string>)
    requires Enumerating(order)
    ensures keys != {} ==> KeysAt(Persist(fs, path, keys, order), path) == FileLines(keys)
    ensures keys != {} && AllStorable(keys) ==> KeysAt(Persist(fs, path, keys, order), path) == keys
  {
    if keys != {} {
      var after := Persist(fs, path, keys, order);
      assert after.texts[path] == RenderLines(order(keys));
      WrittenSetLoads(keys, order);
      assert KeysAt(after, path) == FileLines(keys);
      if AllStorable(keys) {
        FileLinesOfStorable(keys);
      }
    }
  }

  /** Rewriting one progress file changes no other file. */
  lemma PersistKeepsOthers(fs: Fs, path: string, keys: set<string>, order: set<string> -> seq<string>, q: string)
    requires q != path
    ensures KeysAt(Persist(fs, path, keys, order), q) == KeysAt(fs, q)
  {
  }

  /** A set written in the interpreter's iteration order loads back as the lines of its keys. */
  lemma WrittenSetLoads(keys: set<string>, order: set<string> -> seq<string>)
    requires Enumerating(order)
    ensures LoadKeys(RenderLines(order(keys))) == FileLines(keys)
  {
    assert Enumerates(order(keys), keys);
    LoadRendered(order(keys));
    assert (set k | k in order(keys)) == keys;
  }

  /**
   * After each attempted key both progress files load back as the lines of the two
   * sets, whatever the keys: a non-empty set is rewritten in full, and a
   * set that is still empty was empty before, so its file was left as it was.
   */
  lemma StepKeepsSync(env: Env, s: Session, key: string, att: Attempt, order: set<string> -> seq<string>)
    requires Enumerating(order) && Mirrors(s)
    ensures Mirrors(Step(env, s, key, att, order))
  {
    if key !in s.processed {
      AttemptShape(env, s, key, att);
      SettleKeepsSync(s, TryAttempt(env, s, key, att), key, order);
    }
  }

  /**
   * The `except` branch and the rewrites after an attempt that touched no
   * progress file and only grew the sets leave the files loading back as the lines
   * of the sets.
   */
  lemma SettleKeepsSync(before: Session, t: Tried, key: string, order: set<string> -> seq<string>)
    requires Enumerating(order) && Mirrors(before)
    requires t.session.fs.texts == before.fs.texts
    requires before.processed <= t.session.processed && before.errors <= t.session.errors
    ensures Mirrors(Settle(t, key, order))
  {
    var s1 := if t.failed then t.session.(errors := t.session.errors + {key}) else t.session;
    assert s1.fs.texts == before.fs.texts;
    RewriteKeepsSync(s1.fs, DownloadedFilesPath, before.processed, s1.processed, order);
    PersistKeepsOthers(s1.fs, DownloadedFilesPath, s1.processed, order, ErrorFilesPath);
    var fs1 := Persist(s1.fs, DownloadedFilesPath, s1.processed, order);
    RewriteKeepsSync(fs1, ErrorFilesPath, before.errors, s1.errors, order);
    PersistKeepsOthers(fs1, ErrorFilesPath, s1.errors, order, DownloadedFilesPath);
  }

  /**
   * A progress file loading back as the lines of a set, rewritten after the
   * set grew, loads back as the lines of the grown set: rewritten when it is non-empty,
   * left alone when it is still empty, since it was empty before.
   */
  lemma RewriteKeepsSync(fs: Fs, path: string, before: set<string>, keys: set<string>, order: set<string> -> seq<string>)
    requires Enumerating(order)
    requires KeysAt(fs, path) == FileLines(before) && before <= keys
    ensures KeysAt(Persist(fs, path, keys, order), path) == FileLines(keys)
  {
    PersistLoads(fs, path, keys, order);
  }

  /** The run keeps both progress files loading back as the lines of the two sets, step after step. */
  lemma {:induction false} RunKeepsSync(env: Env, start: Session, keys: seq<string>, oracle: Oracle)
    requires Enumerating(oracle.setOrder) && Mirrors(start)
    ensures Mirrors(Run(env, start, keys, oracle))
    decreases |keys|
  {
    if keys != [] {
      var n := |keys| - 1;
      RunKeepsSync(env, start, keys[..n], oracle);
      StepKeepsSync(env, Run(env, start, keys[..n], oracle), keys[n], oracle.attempt(n), oracle.setOrder);
    }
  }

  /** More keys written give more lines back. */
  lemma FileLinesMonotone(a: set<string>, b: set<string>)
    requires a <= b
    ensures FileLines(a) <= FileLines(b)
  {
    forall line | line in FileLines(a)
      ensures line in FileLines(b)
    {
      var k :| k in a && line in ReadLines(k + "\n");
      assert k in b;
    }
  }

  /** The key set each progress file loads back as only grows over the run, whatever the keys. */
  lemma FileKeysMonotone(env: Env, start: Session, keys: seq<string>, oracle: Oracle, i: nat)
    requires Enumerating(oracle.setOrder) && Mirrors(start)
    requires i <= |keys|
    ensures var a := Run(env, start, keys[..i], oracle).fs;
      var b := Run(env, start, keys, oracle).fs;
      KeysAt(a, DownloadedFilesPath) <= KeysAt(b, DownloadedFilesPath) && KeysAt(a, ErrorFilesPath) <= KeysAt(b, ErrorFilesPath)
  {
    var a := Run(env, start, keys[..i], oracle);
    var b := Run(env, start, keys, oracle);
    RunKeepsSync(env, start, keys[..i], oracle);
    RunKeepsSync(env, start, keys, oracle);
    RunPrefixGrows(env, start, keys, oracle, i);
    FileLinesMonotone(a.processed, b.processed);
    FileLinesMonotone(a.errors, b.errors);
  }

  /** Every key of every listing can be stored in a progress file. */
  ghost predicate CatalogStorable(env: Env) {
    forall p, k | p in env.store && k in env.store[p] :: Storable(k)
  }

  /**
   * When `download_files` completes, both progress files load back as the
   * lines of its two sets; when every listed key is storable, as exactly the sets.
   */
  lemma SyncLeavesFilesInSync(env: Env, fs: Fs, posted: seq<Delivery>, oracle: Oracle)
    requires Enumerating(oracle.setOrder)
    ensures Sync(env, fs, posted, oracle).Ok? ==> Mirrors(Sync(env, fs, posted, oracle).value)
    ensures Sync(env, fs, posted, oracle).Ok? && CatalogStorable(env) ==>
      InSync(Sync(env, fs, posted, oracle).value) &&
      AllStorable(Sync(env, fs, posted, oracle).value.processed)
  {
    var c := Candidates(env, fs, "", env.recursionBudget);
    if c.Ok? {
      var start := Load(fs, posted);
      var r := Run(env, start, c.value, oracle);
      LoadInSync(fs, posted);
      RunKeepsSync(env, start, c.value, oracle);
      if CatalogStorable(env) {
        CandidatesEligible(env, fs, "", env.recursionBudget);
        RunGrows(env, start, c.value, oracle);
        forall k | k in r.processed + r.errors
          ensures Storable(k)
        {
          if k in c.value {
            assert Eligible(env, fs, k);
          }
        }
        FileLinesOfStorable(r.processed);
        FileLinesOfStorable(r.errors);
      }
    }
  }

  /**
   * A storable key a completed run recorded as processed is never a
   * candidate of a later listing; when every listed key is storable, no
   * processed key is.
   */
  lemma NextRunSkipsProcessed(env: Env, fs: Fs, posted: seq<Delivery>, oracle: Oracle, prefix: string, depth: nat)
    requires Enumerating(oracle.setOrder)
    requires Sync(env, fs, posted, oracle).Ok?
    ensures var after := Sync(env, fs, posted, oracle).value;
      Candidates(env, after.fs, prefix, depth).Ok? ==>
        forall k | k in after.processed && Storable(k) :: k !in Candidates(env, after.fs, prefix, depth).value
    ensures var after := Sync(env, fs, posted, oracle).value;
      CatalogStorable(env) && Candidates(env, after.fs, prefix, depth).Ok? ==>
        forall k | k in after.processed :: k !in Candidates(env, after.fs, prefix, depth).value
  {
    var after := Sync(env, fs, posted, oracle).value;
    SyncLeavesFilesInSync(env, fs, posted, oracle);
    RecordedKeysSkipped(env, after, prefix, depth);
  }

  /** With the progress files loading back as the lines of the sets, a storable processed key is not listed again. */
  lemma RecordedKeysSkipped(env: Env, s: Session, prefix: string, depth: nat)
    requires Mirrors(s)
    ensures Candidates(env, s.fs, prefix, depth).Ok? ==>
      forall k | k in s.processed && Storable(k) :: k !in Candidates(env, s.fs, prefix, depth).value
  {
    CandidatesEligible(env, s.fs, prefix, depth);
    forall k | k in s.processed && Storable(k)
      ensures k in KnownKeys(s.fs)
    {
      StorableReadsBack(k);
      assert k in ReadLines(k + "\n");
      assert k in FileLines(s.processed);
      assert k in KeysAt(s.fs, DownloadedFilesPath);
    }
  }

  /**
   * A key that is not stripped never equals a stripped line of
   * `downloaded_files.txt`, so `list_files` never skips it as known.
   */
  lemma UnstrippedKeyNeverKnown(fs: Fs, key: string)
    requires !Stripped(key)
    ensures key !in KnownKeys(fs)
  {
  }

  /** A path without '/' is its own basename. */
  lemma SlashFreeBasename(p: string)
    requires '/' !in p
    ensures Basename(p) == p
  {
    HeadThenBasename(p);
    assert |Basename(p)| == |p|;
  }

  /** The names the pipeline derives for the key " a.gz" staged in "/h/". */
  lemma PaddedKeyNames()
    ensures Basename(" a.gz") == " a.gz"
    ensures UncompressedName("/h/ a.gz") == "/h/ a"
  {
    SlashFreeBasename(" a.gz");
    UncompressedNameStopsAtSlash("/h/", " a.gz");
    assert "/h/" + " a.gz" == "/h/ a.gz";
    var r := UncompressedName(" a.gz");
    assert " a.gz"[1] == 'a' && " a.gz"[2] == '.';
    assert |r| == 2;
    assert r == " a.gz"[..2] == " a";
    assert "/h/" + " a" == "/h/ a";
  }

  /**
   * A key with leading whitespace is delivered again on the next run: the
   * first run records it as processed and posts its JSON file, but
   * `downloaded_files.txt` gives it back stripped, the sweep has removed
   * the staged archive, and the next listing returns the key again.
   */
  lemma PaddedKeyDeliveredTwice(oracle: Oracle)
    requires forall i :: oracle.attempt(i) == Attempt(false, Inflated, Response(200))
    ensures var env := Env("", "/h/", map["" := [" a.gz"]], 5);
      var fs := Fs({}, {"/h"}, map[]);
      && Sync(env, fs, [], oracle).Ok?
      && " a.gz" in Sync(env, fs, [], oracle).value.processed
      && Sync(env, fs, [], oracle).value.posted == [Delivery("/h/ a", 200)]
      && Candidates(env, Sync(env, fs, [], oracle).value.fs, "", 5) == Ok([" a.gz"])
  {
    var key := " a.gz";
    var env := Env("", "/h/", map["" := [key]], 5);
    var fs := Fs({}, {"/h"}, map[]);
    var start := Load(fs, []);
    var att := oracle.attempt(0);
    PaddedKeyListed(env, fs);
    assert [key][..0] == [];
    assert Run(env, start, [key], oracle) == Step(env, start, key, att, oracle.setOrder);
    PaddedAttempt(env, start, att);
    var after := Settle(TryAttempt(env, start, key, att), key, oracle.setOrder);
    assert Sync(env, fs, [], oracle) == Ok(after);
    UnstrippedKeyNeverKnown(after.fs, key);
    PaddedKeyListed(env, after.fs);
  }

  /** The first attempt at the padded key delivers its JSON file and leaves the staging directory empty. */
  lemma PaddedAttempt(env: Env, start: Session, att: Attempt)
    requires env == Env("", "/h/", map["" := [" a.gz"]], 5)
    requires start == Load(Fs({}, {"/h"}, map[]), [])
    requires att == Attempt(false, Inflated, Response(200))
    ensures var t := TryAttempt(env, start, " a.gz", att);
      && !t.failed && t.session.processed == {" a.gz"} && t.session.posted == [Delivery("/h/ a", 200)]
      && t.session.fs.files == {} && t.session.fs.dirs == {"/h"}
  {
    var key := " a.gz";
    PaddedKeyNames();
    assert LocalPath(env, key) == "/h/ a.gz";
    assert JsonFor(env, key) == "/h/ a";
    assert start.processed == {} && start.posted == [] && start.fs.files == {} && start.fs.dirs == {"/h"};
    DeliveredAttempt(env, start, key, att, 200);
  }

  /** With the archive not staged and the key not known, the listing of the padded key returns it. */
  lemma PaddedKeyListed(env: Env, fs: Fs)
    requires env == Env("", "/h/", map["" := [" a.gz"]], 5)
    requires fs.files == {} && fs.dirs == {"/h"}
    requires " a.gz" !in KnownKeys(fs)
    ensures Candidates(env, fs, "", 5) == Ok([" a.gz"])
  {
    var key := " a.gz";
    PaddedKeyNames();
    assert LocalPath(env, key) == "/h/ a.gz";
    assert !fs.Exists("/h/ a.gz");
    assert !IsFolderKey(key);
    assert env.basePrefix + "" == "";
    assert "" in env.store && env.store[""] == [key] && |[key]| == 1;
    assert Listing(env, "") == Ok([key]);
    assert [key][..0] == [];
    assert Scan(env, fs, "", [key], 5) == Visit(env, fs, "", Ok([]), key, 5);
    assert [] + [key] == [key];
  }

  /** The names the pipeline derives for the key "a.gz" staged in "/h/". */
  lemma PlainKeyNames()
    ensures Basename("a.gz") == "a.gz"
    ensures UncompressedName("/h/a.gz") == "/h/a"
  {
    SlashFreeBasename("a.gz");
    UncompressedNameStopsAtSlash("/h/", "a.gz");
    assert "/h/" + "a.gz" == "/h/a.gz";
    var r := UncompressedName("a.gz");
    assert "a.gz"[0] == 'a' && "a.gz"[1] == '.';
    assert |r| == 1;
    assert r == "a.gz"[..1] == "a";
    assert "/h/" + "a" == "/h/a";
  }

  /**
   * A key whose archive is truncated is not listed again: the first run
   * records it in the error set only, but the failed attempt leaves the
   * archive in the staging directory, and `list_files` skips a key whose
   * staged path exists. It comes back only once a later success sweeps
   * the staging directory.
   */
  lemma TruncatedKeyNotRelisted(oracle: Oracle)
    requires forall i :: oracle.attempt(i) == Attempt(false, Truncated, Response(200))
    ensures var env := Env("", "/h/", map["" := ["a.gz"]], 5);
      var fs := Fs({}, {"/h"}, map[]);
      && Sync(env, fs, [], oracle).Ok?
      && "a.gz" in Sync(env, fs, [], oracle).value.errors
      && "a.gz" !in Sync(env, fs, [], oracle).value.processed
      && Sync(env, fs, [], oracle).value.posted == []
      && Candidates(env, Sync(env, fs, [], oracle).value.fs, "", 5) == Ok([])
  {
    var key := "a.gz";
    var env := Env("", "/h/", map["" := [key]], 5);
    var fs := Fs({}, {"/h"}, map[]);
    var start := Load(fs, []);
    var att := oracle.attempt(0);
    SingleKeyListed(env, fs);
    assert [key][..0] == [];
    assert Run(env, start, [key], oracle) == Step(env, start, key, att, oracle.setOrder);
    TruncatedAttemptStays(env, start, att);
    var after := Settle(TryAttempt(env, start, key, att), key, oracle.setOrder);
    assert Sync(env, fs, [], oracle) == Ok(after);
    assert after.processed == {} && DownloadedFilesPath !in after.fs.texts;
    assert after.fs.files == {"/h/a.gz", "/h/a"} && after.fs.dirs == {"/h"};
    StagedKeySkipped(env, after.fs);
  }

  /** The truncated attempt at "a.gz" fails, records nothing as processed, and leaves both staged files. */
  lemma TruncatedAttemptStays(env: Env, start: Session, att: Attempt)
    requires env == Env("", "/h/", map["" := ["a.gz"]], 5)
    requires start == Load(Fs({}, {"/h"}, map[]), [])
    requires att == Attempt(false, Truncated, Response(200))
    ensures var t := TryAttempt(env, start, "a.gz", att);
      && t.failed && t.session.processed == {} && t.session.errors == {} && t.session.posted == []
      && t.session.fs == Fs({"/h/a.gz", "/h/a"}, {"/h"}, map[])
  {
    PlainKeyNames();
    assert LocalPath(env, "a.gz") == "/h/a.gz";
    assert JsonFor(env, "a.gz") == "/h/a";
    assert start.processed == {} && start.errors == {} && start.posted == [] && start.fs == Fs({}, {"/h"}, map[]);
    TruncatedArchiveIsError(env, start, "a.gz", att);
  }

  /** With nothing staged and nothing known, the listing of "a.gz" returns it. */
  lemma SingleKeyListed(env: Env, fs: Fs)
    requires env == Env("", "/h/", map["" := ["a.gz"]], 5)
    requires fs == Fs({}, {"/h"}, map[])
    ensures Candidates(env, fs, "", 5) == Ok(["a.gz"])
  {
    var key := "a.gz";
    PlainKeyNames();
    assert LocalPath(env, key) == "/h/a.gz";
    assert !fs.Exists("/h/a.gz");
    assert !IsFolderKey(key);
    assert KnownKeys(fs) == [];
    assert env.basePrefix + "" == "";
    assert "" in env.store && env.store[""] == [key] && |[key]| == 1;
    assert Listing(env, "") == Ok([key]);
    assert [key][..0] == [];
    assert Scan(env, fs, "", [key], 5) == Visit(env, fs, "", Ok([]), key, 5);
    assert [] + [key] == [key];
  }

  /** With its archive still staged and no processed keys on file, the listing of "a.gz" returns nothing. */
  lemma StagedKeySkipped(env: Env, fs: Fs)
    requires env == Env("", "/h/", map["" := ["a.gz"]], 5)
    requires "/h/a.gz" in fs.files && DownloadedFilesPath !in fs.texts
    ensures Candidates(env, fs, "", 5) == Ok([])
  {
    var key := "a.gz";
    PlainKeyNames();
    assert LocalPath(env, key) == "/h/a.gz";
    assert fs.Exists("/h/a.gz");
    assert !IsFolderKey(key);
    assert KnownKeys(fs) == [];
    assert env.basePrefix + "" == "";
    assert "" in env.store && env.store[""] == [key] && |[key]| == 1;
    assert Listing(env, "") == Ok([key]);
    assert [key][..0] == [];
    assert Scan(env, fs, "", [key], 5) == Visit(env, fs, "", Ok([]), key, 5);
  }
}

=== FILE: wrappers.dfy ===
/** Optional values and results that carry the exception a Python call would raise. */
module Wrappers {

  datatype Option<+T> = None | Some(value: T)

  datatype Result<+T, +E> = Ok(value: T) | Err(error: E)
}
